=== FILE: README.md ===
# simple-react-chat-app, modelled in Dafny

A two-person chat client, Alex and Ben, written in React on top of a Supabase
store, plus two Netlify functions that ask a language model for help. This
project models the client's decision logic and the two functions' request
handling as pure Dafny functions over immutable data, and proves what each
step promises.

- **Persisted preferences** (`Storage`): `getInitialState` reading
  `localStorage`, and the two keys written back after every change.
- **Outbox** (`Outbox`): enqueueing a draft, removing an entry by id, and
  combining the queue into one `[timestamp] text` message.
- **Sending and enrichment** (`Enrichment`): `handleSendQueue`. The queue is
  cleared, one loading message is inserted, and one update later resolves its
  suggestion with the returned text or the fixed error text.
- **Realtime mirror** (`Sync`): the three change handlers on `messages`,
  `tasks` and `themes`, folded one event at a time.
- **Task toggling** (`TaskActions`): `handleToggleTask` together with the
  UPDATE event it causes.
- **Voice notes** (`Voice`): the record button and `handleSendVoiceMessage`.
- **Message bubble** (`MessageView`): sent/received side, the sparkle toggle,
  and the choice of reflection card.
- **Endpoints** (`Http`, `GetSuggestion`, `TranscribeAudio`): status codes and
  what reaches the model.
- **Base64** (`Base64`): `atob` as the forgiving-base64 decode of the WHATWG
  Infra Standard, and `Buffer.toString('base64')` as the padded encoding of
  section 4 of RFC 4648. Decoding is partial.
- **JavaScript rules** (`Js`): `trim`, truthiness, destructuring, `String(v)`
  and `split(',')[1]`, defined once.

External effects each appear as a parameter holding their settled outcome:
store inserts, the suggestion and transcription requests, the FileReader, the
microphone, the clocks, `JSON.parse` and `JSON.stringify`. A store update is
an output instead: the handler's result names the update it sends
(`Enrichment.Patch`), and `Enrichment.UpdateWhereId` says what it does to a
table.

Where the code and its type declarations disagree, the model follows the
code:

- `types.ts` declares `Task` without a `user` field. The tasks handler reads
  `user` from every change payload, and `handleAddTask` inserts it, so the
  modelled `Task` carries `user`.
- `Message.suggestion` is typed `Suggestion | string`. The success path in
  `handleSendQueue` stores whatever `getSuggestionForMessage` returns, which
  is `data.suggestion`, the model's reply as a string. The bubble classifies
  every string as an error. The model therefore proves that a message sent
  from the outbox never shows the structured card
  (`MessageView.SentMessageNeverShowsStructuredCard`).
- The messages handler appends `payload.new` for every event type, UPDATE
  included. An updated message therefore appears twice in the mirror
  (`Sync.MessageUpdateAddsSecondCopy`).

## Model

| member | source | states |
|---|---|---|
| Storage.GetInitialState | App.tsx:16-26 | the stored value is used exactly when storage is readable, the key is present, its text is non-empty and it parses; in every other case the fallback is returned |
| Storage.Save | App.tsx:100-115 | writing a key stores the stringified value there, keeps every other key and its value, and adds no other key |
| Storage.AbsentOrEmptyYieldsFallback | App.tsx:18-19 | a missing key or an empty stored string yields the fallback whatever the parser does |
| Storage.RehydrateAfterSave | App.tsx:100-115 | the value saved last under a key is what the next start-up reads, when stringify and parse round-trip |
| Storage.QueueAndUserRehydrateIndependently | App.tsx:31-32 | saving the queue and the user under their two keys and restarting restores both |
| Js.Trim | App.tsx:122 | trim returns a slice of the input bordered by blank text on both sides, has no whitespace at either end, and is empty exactly when the input is blank |
| Js.GetProperty | netlify/functions/get-suggestion.ts:47 | destructuring throws exactly for null and undefined; an object yields its own field or undefined, and any other value yields undefined |
| Js.ToJsString | netlify/functions/transcribe-audio.ts:30 | a string converts to itself, and an integer to its decimal digits without leading zeros ("0" for zero), with a minus sign exactly when it is negative |
| Js.NatToDecimalRoundTrip | netlify/functions/transcribe-audio.ts:30 | the decimal digits of a number read back as that number |
| Js.ShortArraysPrintAsTheirElement | netlify/functions/transcribe-audio.ts:30 | a one-element array converts like its element (null and undefined as ""), and an empty array as "" |
| Js.SplitSecond | App.tsx:189 | `split(',')[1]` is undefined exactly when there is no comma, and otherwise is the comma-free text between the first comma and the next comma or the end |
| Js.SplitSecondOfDataUrl | App.tsx:188-190 | for a data URL `header,payload` with comma-free parts, the second piece is exactly the payload |
| Seqs.Filter | App.tsx:133 | an element survives the filter exactly when it was in the input and passes the test |
| Outbox.AddToQueue | App.tsx:121-130 | a blank draft changes nothing; otherwise exactly one entry with the untrimmed draft and the clock readings is appended, the old entries are kept in order and the text box is cleared |
| Outbox.DeleteFromQueue | App.tsx:132-134 | an entry survives exactly when its id differs from the removed id |
| Outbox.DeleteKeepsOrder | App.tsx:133 | removal distributes over concatenation, so survivors keep their relative order |
| Outbox.DeleteAbsentIsNoOp | App.tsx:133 | removing an id no entry carries leaves the queue unchanged |
| Outbox.DeleteIdempotent | App.tsx:133 | removing an id twice is removing it once |
| Outbox.DeleteUndoesAdd | App.tsx:121-134 | removing the id of the entry just added, when that clock reading was new, restores the previous queue |
| Outbox.CombinedText | App.tsx:139-141 | the combined text is empty exactly for an empty queue, and otherwise begins with the first entry's `[timestamp] text` line |
| Outbox.CombinedTextSnoc | App.tsx:139-141 | one more queued entry adds exactly one more line at the end of the combined text |
| Outbox.CombinedTextAppend | App.tsx:139-141 | the combined text of two queues back to back is their texts joined by one newline |
| Outbox.CombineQueue | App.tsx:139-141 | the map-then-join loop computes the combined text, which is empty exactly for an empty queue |
| Enrichment.SendQueue | App.tsx:136-176 | an empty queue does nothing; otherwise the queue is cleared and one loading message with the combined text is inserted; a failed insert stops there; a successful one leads to one request for that text and one update of that row that clears loading and stores the reply or the fixed error text |
| Enrichment.UpdateWhereId | App.tsx:163-174 | the update touches only rows with the patched id, and on those changes only the suggestion and the loading flag |
| Enrichment.LoadingResolvesOnce | App.tsx:143-175 | a sent message is stored loading with no suggestion; after its update it is not loading, always has a suggestion (the error text on failure), keeps its text, and a repeated update changes nothing |
| Enrichment.PatchTouchesOnlyTheSentRow | App.tsx:163-174 | the resolution update applied to a table holding other rows and the new one resolves just the new row, and applying it again changes nothing |
| Enrichment.SecondSendIsNoOp | App.tsx:137-150 | sending again right after a send does nothing, because the first send emptied the queue |
| Sync.Set | App.tsx:87-90 | the spread update gives the participant the new value and leaves the other participant's value unchanged |
| Sync.FoldMessage | App.tsx:51-53 | a message event adds one entry at the end, holding `new`, and keeps every earlier entry |
| Sync.FoldMessagesAppends | App.tsx:48-54 | every message event adds exactly one entry at the end in arrival order; earlier entries never move or change |
| Sync.MessageUpdateAddsSecondCopy | App.tsx:50-52 | an UPDATE for a message already mirrored keeps the old version and appends the new one under the same id |
| Sync.ReplaceById | App.tsx:68-70 | the map keeps the length and replaces exactly the positions whose id matches |
| Sync.RemoveById | App.tsx:75-77 | a task survives exactly when its id differs from the deleted id |
| Sync.RemoveByIdKeepsOrder | App.tsx:75-77 | the DELETE filter works entry by entry: it distributes over concatenation, so survivors keep their order, and keeps a single task exactly when its id differs |
| Sync.FoldTask | App.tsx:55-81 | only the owner's list changes: INSERT appends, UPDATE replaces matching positions in place, DELETE keeps exactly the non-matching tasks in their order |
| Sync.TaskUpdateAbsentIsNoOp | App.tsx:65-71 | an UPDATE for an id the owner's list lacks changes nothing |
| Sync.TaskDeleteAbsentIsNoOp | App.tsx:72-79 | a DELETE for an id the owner's list lacks changes nothing |
| Sync.TaskDeleteIdempotent | App.tsx:72-79 | a DELETE delivered twice has the effect of one |
| Sync.FoldTaskKeepsPartition | App.tsx:58-80 | every task event keeps each list holding only its owner's tasks |
| Sync.TasksFromStartPartitioned | App.tsx:33-81 | from the initial empty lists, any run of task events leaves every task in its owner's list |
| Sync.FoldTheme | App.tsx:82-91 | any theme event sets the colour of the row's user and keeps the other participant's setting |
| Sync.ThemeLastWriteWins | App.tsx:85-90 | of two events for one participant only the later is visible; events for different participants commute |
| Sync.ThemesLastEventWins | App.tsx:82-91 | after a run of theme events a participant's colour is the one of the last event for them, or their starting colour when there was none |
| Sync.ThemesFromStart | App.tsx:34-37 | a participant no event names keeps the initial colour: fuchsia for Alex, cyan for Ben |
| TaskActions.FindById | App.tsx:288 | the search fails exactly when no task has the id; otherwise it returns the first position holding the id |
| TaskActions.ToggleTask | App.tsx:287-293 | nothing is sent exactly when the user's list lacks the id; otherwise the update negates the first matching task's flag |
| TaskActions.FindUnique | App.tsx:288 | with unique ids the search finds the task's own position |
| TaskActions.ReplaceUnique | App.tsx:68-70 | with unique ids replacing by a task's id changes only that position |
| TaskActions.ToggleFlipsOneTask | App.tsx:287-293 | a toggle followed by its UPDATE event flips exactly that task's flag and leaves every other task and the other list unchanged |
| TaskActions.ToggleKeepsWellFormed | App.tsx:65-71 | after a toggle the lists are still partitioned by owner with unique ids |
| TaskActions.ToggleTwiceRestores | App.tsx:287-293 | toggling the same task twice restores the mirror |
| Voice.VoiceClick | App.tsx:226-260 | while recording a click stops the recorder and goes idle; when idle it starts recording exactly when the microphone is obtained, and otherwise alerts |
| Voice.ClickCycle | App.tsx:227-254 | with the microphone granted, click, click starts and then stops; when it is refused, idle is kept and no recorder starts |
| Voice.SendVoiceMessage | App.tsx:178-224 | the transcribing flag is raised and then lowered on every path; transcription is always requested; a failed read inserts nothing and keeps the draft; otherwise a non-loading "(voice note)" carrying the data URL's payload is inserted; the draft changes only to a string transcription |
| Voice.VoiceBranchesIndependent | App.tsx:196-218 | the insert outcome never affects the text box, and the transcription outcome never affects what is inserted |
| Voice.PlaceholderCarriesPayload | App.tsx:185-205 | a recording read as `header,payload` is stored with exactly the payload as its audio |
| MessageView.ExactlyOneSeesItAsSent | components/Message.tsx:21 | of the two participants exactly one, the sender, sees a message as sent |
| MessageView.ToggleSuggestion | components/Message.tsx:14-19 | a click flips the card state exactly when the sparkle button is shown (a truthy suggestion or loading) and otherwise keeps it |
| MessageView.ReflectionCard | components/Message.tsx:41-92 | loading shows the skeleton; a falsy suggestion shows nothing; a string shows as an error card; the structured card appears exactly for a loaded object suggestion, carrying its acknowledgement and encouragement, and its mood and question exactly when those are non-empty |
| MessageView.ErrorCardExactlyForStrings | components/Message.tsx:23-64 | the error card appears exactly for a loaded non-empty string suggestion and shows that string; a loaded truthy suggestion gets the error card or the structured card, never both |
| MessageView.ClicksAlternateCard | components/Message.tsx:12-19 | starting closed, after n clicks the card is on screen exactly when the sparkle button is shown and n is odd, and it is then the selected card; without the button no click opens it |
| MessageView.SentMessageNeverShowsStructuredCard | components/Message.tsx:41-64 | a message sent from the outbox shows the skeleton while loading; once resolved it shows the error card with the reply or with the error text (nothing for an empty reply), never the structured card |
| MessageView.VoiceNoteHasNoReflection | components/Message.tsx:14-53 | a voice note shows no sparkle button, a click cannot open its card, and its card is empty |
| Http.ReadField | netlify/functions/get-suggestion.ts:46-47 | an unparsable body or JSON null throws before the field is read; an object yields its field or undefined; any other defined value yields undefined |
| Http.MissingBodyReadsAsEmpty | netlify/functions/get-suggestion.ts:47 | a missing body is read exactly like an empty one, and when `{}` parses to the empty object every field of it reads as undefined |
| GetSuggestion.Handle | netlify/functions/get-suggestion.ts:38-83 | non-POST gets 405; an unreadable body gets 500; a falsy message gets 400 without a model call; the model is called exactly for a truthy message, with that message; its reply gives 200 and its failure 500 |
| GetSuggestion.StatusCodes | netlify/functions/get-suggestion.ts:38-83 | every request gets 200, 400, 405 or 500, and each code holds exactly under its own condition |
| GetSuggestion.EmptyBodyIsBadRequest | netlify/functions/get-suggestion.ts:47-54 | a POST with no body or an empty one is answered 400 without calling the model |
| TranscribeAudio.DecodeAudio | netlify/functions/transcribe-audio.ts:30 | a string field is decoded as sent, and so is a string in a one-element array; an object field, printed as "[object Object]", never decodes |
| TranscribeAudio.Handle | netlify/functions/transcribe-audio.ts:11-53 | non-POST gets 405; an unreadable body gets 500; a falsy field gets 400; undecodable audio gets 500; the model is called exactly for a POST with two truthy fields whose audio decodes, with the re-encoded bytes and the MIME type as sent; 200 only on the model's reply |
| TranscribeAudio.StatusCodes | netlify/functions/transcribe-audio.ts:11-53 | every request gets 200, 400, 405 or 500, and each code holds exactly under its own condition |
| TranscribeAudio.ClientAudioForwardedUnchanged | netlify/functions/transcribe-audio.ts:29-45 | a non-empty recording sent as encoder base64 with a non-empty MIME type reaches the model with both fields exactly as sent, and the reply comes back as 200 |
| TranscribeAudio.EmptyRecordingIsBadRequest | netlify/functions/transcribe-audio.ts:20-27 | an empty recording encodes as "", which is falsy, so the request gets 400 |
| Base64.SextetToChar | netlify/functions/transcribe-audio.ts:34 | every 6-bit value maps to an alphabet character that reads back as the same value |
| Base64.EncodeUnpadded | netlify/functions/transcribe-audio.ts:34 | the unpadded encoding uses only the alphabet, with four characters per three bytes and two or three for a final one or two |
| Base64.PaddedLength | netlify/functions/transcribe-audio.ts:34 | the padding makes the length a multiple of four, and the unpadded encoding never leaves a single character over |
| Base64.Encode | netlify/functions/transcribe-audio.ts:34 | the padded encoding's length is a multiple of four |
| Base64.RemoveAsciiWhitespace | netlify/functions/transcribe-audio.ts:30 | the result holds no ASCII whitespace, and text without whitespace is unchanged |
| Base64.RemoveAsciiWhitespaceAppend | netlify/functions/transcribe-audio.ts:30 | whitespace removal distributes over concatenation |
| Base64.RemoveAsciiWhitespaceOne | netlify/functions/transcribe-audio.ts:30 | on a single character whitespace is dropped and anything else kept |
| Base64.StripPadding | netlify/functions/transcribe-audio.ts:30 | dropping padding yields a prefix at most two characters shorter; only `=` is dropped, a final `=` always is, and a final `==` entirely |
| Base64.DecodeUnpadded | netlify/functions/transcribe-audio.ts:30 | a run of alphabet characters decodes to three bytes per four characters, rounded down |
| Base64.LeadingForeignCharFails | netlify/functions/transcribe-audio.ts:30 | text starting with a character that is neither whitespace, `=` nor in the alphabet makes atob throw |
| Base64.DecodedLengthIsThreeQuarters | netlify/functions/transcribe-audio.ts:30 | decoding gives three bytes per four characters, rounded down |
| Base64.Atob | netlify/functions/transcribe-audio.ts:30 | atob throws exactly when, after whitespace removal and padding removal for lengths divisible by four, one character is left over or a character outside the alphabet remains; otherwise it yields three bytes per four characters |
| Base64.DecodeEncodeUnpadded | netlify/functions/transcribe-audio.ts:30-34 | decoding the unpadded encoding of any bytes gives the bytes back |
| Base64.AtobOfEncode | netlify/functions/transcribe-audio.ts:30-34 | atob of any padded encoding succeeds and gives the bytes back, so decoding and re-encoding an encoder's output returns the same text |

## Left out

- Supabase: channel subscription and removal, the queries themselves and their latency. Each insert is a parameter holding its settled outcome. Each update is an output whose outcome is not modelled (see Enrichment.SendQueue below and `TaskActions.ToggleTask`). Change events arrive one at a time in delivery order.
- Concurrency: React state batching, the ordering between realtime events and the client's own writes, and the unawaited transcription promise. Each handler is modelled as one run to completion.
- Device and browser APIs: MediaRecorder, getUserMedia, FileReader and Blob. The results of getUserMedia and FileReader are parameters, and the recorder is a state of the voice button. The microphone `alert` is an output of `Voice.VoiceClick`, and `console` logging is dropped.
- Clocks: `Date.now()` and `new Date().toISOString()` are inputs.
- `localStorage` writes are modelled as a map update. `JSON.parse` and `JSON.stringify` are parameters, and the rehydration lemmas assume the two round-trip instead of proving it for JSON.
- Storage.GetInitialState: a stored value that parses but has the wrong shape is returned as is in the source. The model's `parse` yields a value of the expected type, so such a value cannot arise.
- services/api.ts: the HTTP layer between the client and the endpoints is not part of this model. The suggestion and transcription requests are outcomes: the reply string or a rejection. A suggestion of any other JSON shape is not modelled.
- services/gemini.ts, the model configuration, safety settings and prompt are not part of this model. The model reply is a parameter.
- Presentation: class names, themes, drawers, the header, the message list and constants.ts are left out.
- handleThemeChange, handleAddTask, handleUpdateTask and handleDeleteTask only forward a call to the store. Their effect on the mirror arrives through the modelled change handlers.
- handleUserChange sets `currentUser` and closes both drawers, and handleToggleActiveDrawer opens the current user's drawer. The drawer flags are presentation. The persisted `currentUser` is modelled by `Storage.Save` and `Storage.QueueAndUserRehydrateIndependently`; the switch itself is a plain assignment.
- Sync.FoldTheme: a DELETE on `themes` carries an empty `new` record, on which the source throws a TypeError inside the handler. Only events carrying a row are modelled.
- Sync.FoldTask: a DELETE is modelled with the `old` record's `user`, which is what the transport sends when the `tasks` table's replica identity is FULL. Under the default replica identity `old` holds only the primary key, `old.user` is undefined, and the source's `prevTasks[undefined].filter` throws inside the handler; that case is not modelled.
- Sync.FoldMessage: `payload.new` is kept as it arrives, and an empty record of a DELETE is appended as `EmptyRow`.
- Js.JsValue: JSON numbers are integers. Fractions, exponents, NaN and floating-point rendering in `String(v)` are not modelled.
- Js.ToJsString: objects with a custom `toString` or `Symbol.toPrimitive` are not modelled. Every object prints as "[object Object]".
- Voice.SendVoiceMessage: the placeholder's insert outcome is a parameter that nothing reads. The source discards the `{ error }` the insert returns (App.tsx:205) and only logs an exception the call throws (App.tsx:206-208); neither changes what follows.
- Enrichment.SendQueue: the outcome of the final update request is not modelled. When it fails, the source leaves the row loading in the store.

=== FILE: base64.dfy ===
/** Base64 as the transcription handler uses it: `atob`, which follows the
    forgiving-base64 decode of the WHATWG Infra Standard, and
    `Buffer.from(bytes).toString('base64')`, the padded encoding of section 4
    of RFC 4648.
 */
module Base64 {
  import opened Wrappers

  type Byte = b: int | 0 <= b < 256
  type Sextet = x: int | 0 <= x < 64

  /** The alphabet `A–Z a–z 0–9 + /`. */
  predicate IsBase64Char(c: char) {
    ('A' <= c <= 'Z') || ('a' <= c <= 'z') || ('0' <= c <= '9') || c == '+' || c == '/'
  }

  predicate AllBase64(s: string) {
    forall i :: 0 <= i < |s| ==> IsBase64Char(s[i])
  }

  function CharToSextet(c: char): Sextet
    requires IsBase64Char(c)
  {
    if 'A' <= c <= 'Z' then c as int - 'A' as int
    else if 'a' <= c <= 'z' then c as int - 'a' as int + 26
    else if '0' <= c <= '9' then c as int - '0' as int + 52
    else if c == '+' then 62
    else 63
  }

  /** The alphabet's character for a 6-bit value; reading it back gives the
      value again. */
  function SextetToChar(x: Sextet): (c: char)
    ensures IsBase64Char(c) && CharToSextet(c) == x
  {
    if x < 26 then ('A' as int + x) as char
    else if x < 52 then ('a' as int + (x - 26)) as char
    else if x < 62 then ('0' as int + (x - 52)) as char
    else if x == 62 then '+'
    else '/'
  }

  // ---------------------------------------------------------------------------
  // Encoding
  // ---------------------------------------------------------------------------

  /** The number of characters `n` bytes take before padding: four per group
      of three, two for a final single byte, three for a final pair. */
  function EncodedLength(n: nat): nat {
    if n == 0 then 0 else if n == 1 then 2 else if n == 2 then 3 else 4 + EncodedLength(n - 3)
  }

  /** Three bytes as four characters: their 24 bits cut into four sextets. */
  function EncodeGroup(b0: Byte, b1: Byte, b2: Byte): (q: string)
    ensures |q| == 4 && AllBase64(q)
  {
    [SextetToChar(b0 / 4), SextetToChar((b0 % 4) * 16 + b1 / 16),
     SextetToChar((b1 % 16) * 4 + b2 / 64), SextetToChar(b2 % 64)]
  }

  /** A final single byte as two characters, its 8 bits padded with zeros to
      12. */
  function EncodeTailOne(b0: Byte): (q: string)
    ensures |q| == 2 && AllBase64(q)
  {
    [SextetToChar(b0 / 4), SextetToChar((b0 % 4) * 16)]
  }

  /** A final pair of bytes as three characters, its 16 bits padded with zeros
      to 18. */
  function EncodeTailTwo(b0: Byte, b1: Byte): (q: string)
    ensures |q| == 3 && AllBase64(q)
  {
    [SextetToChar(b0 / 4), SextetToChar((b0 % 4) * 16 + b1 / 16), SextetToChar((b1 % 16) * 4)]
  }

  /** Every three bytes become four characters; a final one or two bytes
      become two or three characters, without padding. */
  function EncodeUnpadded(bs: seq<Byte>): (s: string)
    ensures AllBase64(s)
    ensures |s| == EncodedLength(|bs|)
  {
    if |bs| == 0 then ""
    else if |bs| == 1 then EncodeTailOne(bs[0])
    else if |bs| == 2 then EncodeTailTwo(bs[0], bs[1])
    else
      var q := EncodeGroup(bs[0], bs[1], bs[2]);
      var rest := EncodeUnpadded(bs[3..]);
      assert forall i :: 0 <= i < |q + rest| ==> (q + rest)[i] == if i < 4 then q[i] else rest[i - 4];
      q + rest
  }

  /** The `=` characters that round the encoding up to a multiple of four. */
  function Padding(n: nat): string {
    if n % 3 == 1 then "==" else if n % 3 == 2 then "=" else ""
  }

  /** The padding completes the last group: with it, the length is a multiple
      of four, and without it a single character is never left over. */
  lemma {:induction false} PaddedLength(n: nat)
    ensures (EncodedLength(n) + |Padding(n)|) % 4 == 0
    ensures EncodedLength(n) % 4 != 1
  {
    if n >= 3 {
      PaddedLength(n - 3);
      var e := EncodedLength(n - 3);
      var p := |Padding(n - 3)|;
      assert n % 3 == (n - 3) % 3;
      assert Padding(n) == Padding(n - 3);
      assert EncodedLength(n) == e + 4;
      assert (e + 4 + p) % 4 == (e + p) % 4 && (e + 4) % 4 == e % 4;
    }
  }

  /** `Buffer.from(bytes).toString('base64')`. */
  function Encode(bs: seq<Byte>): (s: string)
    ensures |s| % 4 == 0
  {
    PaddedLength(|bs|);
    EncodeUnpadded(bs) + Padding(|bs|)
  }

  // ---------------------------------------------------------------------------
  // Decoding
  // ---------------------------------------------------------------------------

  /** ASCII whitespace: TAB, LF, FF, CR and SPACE. */
  predicate IsAsciiWhitespace(c: char) {
    c as int == 0x09 || c as int == 0x0A || c as int == 0x0C || c as int == 0x0D || c as int == 0x20
  }

  function RemoveAsciiWhitespace(s: string): (r: string)
    ensures forall i :: 0 <= i < |r| ==> !IsAsciiWhitespace(r[i])
    ensures (forall i :: 0 <= i < |s| ==> !IsAsciiWhitespace(s[i])) ==> r == s
  {
    if |s| == 0 then ""
    else (if IsAsciiWhitespace(s[0]) then "" else [s[0]]) + RemoveAsciiWhitespace(s[1..])
  }

  /** Whitespace removal works character by character: it distributes over
      concatenation. */
  lemma {:induction false} RemoveAsciiWhitespaceAppend(a: string, b: string)
    ensures RemoveAsciiWhitespace(a + b) == RemoveAsciiWhitespace(a) + RemoveAsciiWhitespace(b)
    decreases |a|
  {
    if |a| == 0 {
      assert a + b == b;
    } else {
      var head := if IsAsciiWhitespace(a[0]) then "" else [a[0]];
      assert (a + b)[0] == a[0];
      assert (a + b)[1..] == a[1..] + b;
      RemoveAsciiWhitespaceAppend(a[1..], b);
      calc {
        RemoveAsciiWhitespace(a + b);
        head + RemoveAsciiWhitespace(a[1..] + b);
        head + (RemoveAsciiWhitespace(a[1..]) + RemoveAsciiWhitespace(b));
        (head + RemoveAsciiWhitespace(a[1..])) + RemoveAsciiWhitespace(b);
      }
    }
  }

  /** On one character: whitespace is dropped, anything else kept. */
  lemma {:induction false} RemoveAsciiWhitespaceOne(c: char)
    ensures RemoveAsciiWhitespace([c]) == (if IsAsciiWhitespace(c) then "" else [c])
  {
    assert [c][1..] == "";
  }

  /** Drops a final "==", or else a final "=". */
  function StripPadding(s: string): (r: string)
    ensures |r| <= |s| && r == s[..|r|]
    ensures |s| - 2 <= |r|
    // only '=' is dropped, a final '=' always is, and a final "==" entirely
    ensures forall i :: |r| <= i < |s| ==> s[i] == '='
    ensures |s| > 0 && s[|s| - 1] == '=' ==> |r| < |s|
    ensures |s| >= 2 && s[|s| - 2..] == "==" ==> |r| == |s| - 2
  {
    if |s| >= 2 && s[|s| - 2] == '=' && s[|s| - 1] == '=' then s[..|s| - 2]
    else if |s| >= 1 && s[|s| - 1] == '=' then s[..|s| - 1]
    else s
  }

  /** The number of bytes `n` characters decode to, the inverse count of
      `EncodedLength`. */
  function DecodedLength(n: nat): nat {
    if n < 2 then 0 else if n == 2 then 1 else if n == 3 then 2 else 3 + DecodedLength(n - 4)
  }

  /** Three bytes for every four characters, rounded down. */
  lemma {:induction false} DecodedLengthIsThreeQuarters(n: nat)
    ensures DecodedLength(n) == 3 * n / 4
  {
    if n >= 4 {
      DecodedLengthIsThreeQuarters(n - 4);
    }
  }

  /** The three bytes whose 24 bits are the four sextets, high bits first. */
  function DecodeQuad(x0: Sextet, x1: Sextet, x2: Sextet, x3: Sextet): seq<Byte> {
    [x0 * 4 + x1 / 16, (x1 % 16) * 16 + x2 / 4, (x2 % 4) * 64 + x3]
  }

  /** Four characters give three bytes; a final two or three characters give
      one or two bytes, their leftover low bits discarded. */
  function DecodeUnpadded(s: string): (r: seq<Byte>)
    requires AllBase64(s) && |s| % 4 != 1
    ensures |r| == DecodedLength(|s|)
  {
    if |s| == 0 then []
    else if |s| == 2 then
      [CharToSextet(s[0]) * 4 + CharToSextet(s[1]) / 16]
    else if |s| == 3 then
      [CharToSextet(s[0]) * 4 + CharToSextet(s[1]) / 16,
       (CharToSextet(s[1]) % 16) * 16 + CharToSextet(s[2]) / 4]
    else
      DecodeQuad(CharToSextet(s[0]), CharToSextet(s[1]), CharToSextet(s[2]), CharToSextet(s[3]))
      + DecodeUnpadded(s[4..])
  }

  /** `atob`: remove ASCII whitespace; when the length is a multiple of four
      drop one or two final `=`; fail when one character is left over or a
      character outside the alphabet remains; decode the rest. */
  function Atob(s: string): (r: Option<seq<Byte>>)
    ensures var t := RemoveAsciiWhitespace(s);
            var u := if |t| % 4 == 0 then StripPadding(t) else t;
            && (r.None? <==> |u| % 4 == 1 || !AllBase64(u))
            && (r.Some? ==> |r.value| == 3 * |u| / 4)
  {
    var t := RemoveAsciiWhitespace(s);
    var u := if |t| % 4 == 0 then StripPadding(t) else t;
    if |u| % 4 == 1 || !AllBase64(u) then None
    else
      DecodedLengthIsThreeQuarters(|u|);
      Some(DecodeUnpadded(u))
  }

  /** Text that starts with a character that is neither whitespace nor in the
      alphabet (nor `=`) never decodes: that character survives whitespace and
      padding removal. */
  lemma {:induction false} LeadingForeignCharFails(s: string)
    requires |s| > 0 && !IsAsciiWhitespace(s[0]) && !IsBase64Char(s[0]) && s[0] != '='
    ensures Atob(s).None?
  {
    var t := RemoveAsciiWhitespace(s);
    assert t == [s[0]] + RemoveAsciiWhitespace(s[1..]);
    var u := if |t| % 4 == 0 then StripPadding(t) else t;
    assert |u| > 0 && u[0] == s[0];
    assert !IsBase64Char(u[0]);
  }

  // ---------------------------------------------------------------------------
  // Round trip
  // ---------------------------------------------------------------------------

  /** One group of three bytes survives encoding and decoding. */
  lemma GroupRoundTrip(b0: Byte, b1: Byte, b2: Byte)
    ensures var s1 := (b0 % 4) * 16 + b1 / 16;
            var s2 := (b1 % 16) * 4 + b2 / 64;
            && (b0 / 4) * 4 + s1 / 16 == b0
            && (s1 % 16) * 16 + s2 / 4 == b1
            && (s2 % 4) * 64 + b2 % 64 == b2
            && DecodeQuad(b0 / 4, s1, s2, b2 % 64) == [b0, b1, b2]
  {
  }

  /** Text in the alphabet, followed by more such text, is in the alphabet. */
  lemma AllBase64Append(a: string, b: string)
    requires AllBase64(a) && AllBase64(b)
    ensures AllBase64(a + b)
  {
    forall i | 0 <= i < |a + b|
      ensures IsBase64Char((a + b)[i])
    {
      if i < |a| {
        assert (a + b)[i] == a[i];
      } else {
        assert (a + b)[i] == b[i - |a|];
      }
    }
  }

  /** Decoding the four characters of one encoded group gives its bytes. */
  lemma {:induction false} DecodeGroup(b0: Byte, b1: Byte, b2: Byte, rest: string)
    requires AllBase64(rest) && |rest| % 4 != 1
    ensures AllBase64(EncodeGroup(b0, b1, b2) + rest) && |EncodeGroup(b0, b1, b2) + rest| % 4 != 1
    ensures DecodeUnpadded(EncodeGroup(b0, b1, b2) + rest) == [b0, b1, b2] + DecodeUnpadded(rest)
  {
    var x1 := (b0 % 4) * 16 + b1 / 16;
    var x2 := (b1 % 16) * 4 + b2 / 64;
    var q := EncodeGroup(b0, b1, b2);
    var s := q + rest;
    AllBase64Append(q, rest);
    assert s[4..] == rest;
    assert s[0] == q[0] && s[1] == q[1] && s[2] == q[2] && s[3] == q[3];
    assert CharToSextet(s[0]) == b0 / 4 && CharToSextet(s[1]) == x1;
    assert CharToSextet(s[2]) == x2 && CharToSextet(s[3]) == b2 % 64;
    GroupRoundTrip(b0, b1, b2);
    assert DecodeUnpadded(s) == DecodeQuad(b0 / 4, x1, x2, b2 % 64) + DecodeUnpadded(rest);
  }

  /** A final single byte, encoded as two characters, decodes back. */
  lemma DecodeTailOne(b0: Byte)
    ensures DecodeUnpadded(EncodeTailOne(b0)) == [b0]
  {
    var s := EncodeTailOne(b0);
    assert CharToSextet(s[0]) == b0 / 4 && CharToSextet(s[1]) == (b0 % 4) * 16;
  }

  /** A final pair of bytes, encoded as three characters, decodes back. */
  lemma DecodeTailTwo(b0: Byte, b1: Byte)
    ensures DecodeUnpadded(EncodeTailTwo(b0, b1)) == [b0, b1]
  {
    var x1 := (b0 % 4) * 16 + b1 / 16;
    var s := EncodeTailTwo(b0, b1);
    assert CharToSextet(s[0]) == b0 / 4 && CharToSextet(s[1]) == x1;
    assert CharToSextet(s[2]) == (b1 % 16) * 4;
    GroupRoundTrip(b0, b1, 0);
  }

  /** Decoding the unpadded encoding gives the bytes back. */
  lemma {:induction false} DecodeEncodeUnpadded(bs: seq<Byte>)
    ensures |EncodeUnpadded(bs)| % 4 != 1
    ensures DecodeUnpadded(EncodeUnpadded(bs)) == bs
    decreases |bs|
  {
    PaddedLength(|bs|);
    if |bs| == 1 {
      DecodeTailOne(bs[0]);
    } else if |bs| == 2 {
      DecodeTailTwo(bs[0], bs[1]);
    } else if |bs| >= 3 {
      var rest := EncodeUnpadded(bs[3..]);
      assert EncodeUnpadded(bs) == EncodeGroup(bs[0], bs[1], bs[2]) + rest;
      DecodeEncodeUnpadded(bs[3..]);
      DecodeGroup(bs[0], bs[1], bs[2], rest);
      assert bs == [bs[0], bs[1], bs[2]] + bs[3..];
    }
  }

  /** An encoding holds no whitespace, so `atob` has nothing to remove. */
  lemma {:induction false} EncodeHasNoWhitespace(bs: seq<Byte>)
    ensures RemoveAsciiWhitespace(Encode(bs)) == Encode(bs)
  {
    var e := EncodeUnpadded(bs);
    var s := Encode(bs);
    forall i | 0 <= i < |s|
      ensures !IsAsciiWhitespace(s[i])
    {
      if i < |e| {
        assert s[i] == e[i];
      }
    }
  }

  /** Removing the padding from text in the alphabet followed by at most two
      `=` gives the text back. */
  lemma {:induction false} StripPaddingOf(e: string, p: string)
    requires AllBase64(e) && (p == "" || p == "=" || p == "==")
    ensures StripPadding(e + p) == e
  {
    var s := e + p;
    if |e| > 0 {
      assert s[|e| - 1] == e[|e| - 1] && IsBase64Char(e[|e| - 1]);
    }
    assert s[..|e|] == e;
  }

  /** Removing the padding of an encoding leaves the unpadded encoding. */
  lemma {:induction false} StripEncodePadding(bs: seq<Byte>)
    ensures StripPadding(Encode(bs)) == EncodeUnpadded(bs)
  {
    StripPaddingOf(EncodeUnpadded(bs), Padding(|bs|));
  }

  /** What the padded encoding produces, `atob` reads back unchanged. */
  lemma {:induction false} AtobOfEncode(bs: seq<Byte>)
    ensures Atob(Encode(bs)) == Some(bs)
    // so re-encoding what was decoded gives the encoder's text back
    ensures Encode(Atob(Encode(bs)).value) == Encode(bs)
  {
    EncodeHasNoWhitespace(bs);
    StripEncodePadding(bs);
    DecodeEncodeUnpadded(bs);
  }
}

=== FILE: enrichment.dfy ===
/** Sending the outbox and enriching the sent message with a suggestion
    (App.tsx `handleSendQueue`). The store's insert and update and the
    suggestion request are external calls; each one's settled result is a
    parameter.
 */
module Enrichment {
  import opened Wrappers
  import opened Types
  import opened Outbox

  /** The text stored in place of a suggestion when the request fails. */
  const SuggestionErrorText: string := "Sorry, an error occurred while getting a suggestion."

  /** The update `{suggestion, suggestionLoading}` sent to the store for the
      row whose id is `id`. */
  datatype Patch = Patch(id: string, suggestion: SuggestionValue, suggestionLoading: bool)

  /** Everything one run of the send handler does, in order: the queue it
      leaves behind, the record it inserts, the text it asks a suggestion for,
      and the update it sends to resolve the suggestion. */
  datatype SendRun = SendRun(
    queue: seq<QueuedMessage>,
    inserted: Option<NewMessage>,
    suggestionRequest: Option<string>,
    patch: Option<Patch>)

  /** `handleSendQueue` run by `sender` at `nowIso`. `insert` is the store's
      answer to the insert (the new row's id, or an error); `suggest` is the
      settled suggestion request (the string the endpoint returned, or a
      rejection). */
  function SendQueue(queue: seq<QueuedMessage>, sender: User, nowIso: string,
                     insert: Settled<string>, suggest: Settled<string>): (r: SendRun)
    // an empty queue: nothing is inserted, requested or patched
    ensures |queue| == 0 ==> r == SendRun(queue, None, None, None)
    // otherwise the queue is cleared whatever the insert's fate, and one
    // loading message carrying the combined lines is inserted
    ensures |queue| > 0 ==>
              && r.queue == []
              && r.inserted == Some(NewMessage(CombinedText(queue), nowIso, sender, true, None))
    // a failed insert stops the handler before the suggestion request
    ensures insert.Err? ==> r.suggestionRequest.None? && r.patch.None?
    // a successful insert leads to exactly one request and one resolution
    // update, aimed at the inserted row, that clears the loading flag
    ensures |queue| > 0 && insert.Ok? ==>
              && r.suggestionRequest == Some(CombinedText(queue))
              && r.patch.Some?
              && r.patch.value.id == insert.value
              && !r.patch.value.suggestionLoading
              && r.patch.value.suggestion
                 == (if suggest.Ok? then Text(suggest.value) else Text(SuggestionErrorText))
  {
    if |queue| == 0 then SendRun(queue, None, None, None)
    else
      var combined := CombinedText(queue);
      var message := NewMessage(combined, nowIso, sender, true, None);
      match insert
      case Err => SendRun([], Some(message), None, None)
      case Ok(id) =>
        var patch := match suggest
          case Ok(s) => Patch(id, Text(s), false)
          case Err => Patch(id, Text(SuggestionErrorText), false);
        SendRun([], Some(message), Some(message.text), Some(patch))
  }

  /** The store's `update(patch).eq('id', p.id)` on one row. */
  function ApplyPatch(m: Message, p: Patch): Message {
    if m.id == p.id then m.(suggestion := Some(p.suggestion), suggestionLoading := p.suggestionLoading)
    else m
  }

  /** The store's `update(patch).eq('id', p.id)` on a table: every row with that
      id takes the new suggestion and flag, every other row is untouched. */
  function UpdateWhereId(rows: seq<Message>, p: Patch): (r: seq<Message>)
    ensures |r| == |rows|
    ensures forall i :: 0 <= i < |rows| && rows[i].id != p.id ==> r[i] == rows[i]
    ensures forall i :: 0 <= i < |rows| && rows[i].id == p.id ==>
              && r[i].suggestion == Some(p.suggestion)
              && r[i].suggestionLoading == p.suggestionLoading
              && r[i].(suggestion := rows[i].suggestion, suggestionLoading := rows[i].suggestionLoading) == rows[i]
  {
    if |rows| == 0 then [] else [ApplyPatch(rows[0], p)] + UpdateWhereId(rows[1..], p)
  }

  /** The life of one sent message: it is stored loading and without a
      suggestion; once the resolution update lands it is no longer loading and
      holds either the returned text or the fixed error text, never nothing;
      and the same update landing again changes nothing. */
  lemma {:induction false} LoadingResolvesOnce(queue: seq<QueuedMessage>, sender: User, nowIso: string,
                                               id: string, suggest: Settled<string>)
    requires |queue| > 0
    ensures var r := SendQueue(queue, sender, nowIso, Ok(id), suggest);
            var stored := r.inserted.value.WithId(id);
            var resolved := ApplyPatch(stored, r.patch.value);
            && stored.suggestionLoading && stored.suggestion.None?
            && !resolved.suggestionLoading
            && resolved.suggestion.Some?
            && (suggest.Err? ==> resolved.suggestion == Some(Text(SuggestionErrorText)))
            && resolved.text == CombinedText(queue)
            && ApplyPatch(resolved, r.patch.value) == resolved
  {
  }

  /** The resolution update lands on the stored row only: applied to a table
      holding other rows and the new one, it resolves the new row and leaves
      every other row as it was; applied again, it changes nothing. */
  lemma {:induction false} PatchTouchesOnlyTheSentRow(table: seq<Message>, queue: seq<QueuedMessage>, sender: User,
                                                      nowIso: string, id: string, suggest: Settled<string>)
    requires |queue| > 0
    requires forall i :: 0 <= i < |table| ==> table[i].id != id
    ensures var r := SendQueue(queue, sender, nowIso, Ok(id), suggest);
            var stored := r.inserted.value.WithId(id);
            var after := UpdateWhereId(table + [stored], r.patch.value);
            && after == table + [ApplyPatch(stored, r.patch.value)]
            && UpdateWhereId(after, r.patch.value) == after
  {
    var r := SendQueue(queue, sender, nowIso, Ok(id), suggest);
    var p := r.patch.value;
    var stored := r.inserted.value.WithId(id);
    var rows := table + [stored];
    var after := UpdateWhereId(rows, p);
    assert p.id == id && stored.id == id;
    assert forall i :: 0 <= i < |table| ==> rows[i] == table[i];
    assert after == table + [ApplyPatch(stored, p)];
    var again := UpdateWhereId(after, p);
    assert forall i :: 0 <= i < |table| ==> after[i] == table[i];
    assert again == after;
  }

  /** Sending the queue and then sending again does nothing the second time:
      the first send emptied the queue. */
  lemma {:induction false} SecondSendIsNoOp(queue: seq<QueuedMessage>, sender: User, nowIso: string, later: string,
                                            insert: Settled<string>, suggest: Settled<string>,
                                            insert2: Settled<string>, suggest2: Settled<string>)
    ensures var r := SendQueue(queue, sender, nowIso, insert, suggest);
            var r2 := SendQueue(r.queue, sender, later, insert2, suggest2);
            r2.queue == [] && r2.inserted.None? && r2.suggestionRequest.None? && r2.patch.None?
  {
  }
}

=== FILE: get_suggestion.dfy ===
/** The reflection endpoint (netlify/functions/get-suggestion.ts `handler`):
    which status code a request gets. The language-model call is external; its
    settled outcome (the reply text, or a throw) is a parameter.
 */
module GetSuggestion {
  import opened Wrappers
  import opened Js
  import opened Http

  const MessageRequired: Response := Response(400, ErrorBody("Message is required"))
  const SuggestionFailed: Response := Response(500, ErrorBody("Failed to get suggestion"))

  /** A response, and the `message` value the model was sent (None when the
      model was not called). */
  datatype Handled = Handled(response: Response, modelInput: Option<JsValue>)

  /** `handler(event)` for a request with `httpMethod` and `body`; `parse` is
      `JSON.parse` (None when it throws); `reply` is the model's settled
      reply. */
  function Handle(httpMethod: string, body: Option<string>, parse: string -> Option<JsValue>,
                  reply: Settled<string>): (r: Handled)
    // only POST is served, and nothing else is looked at otherwise
    ensures httpMethod != "POST" ==> r == Handled(MethodNotAllowed, None)
    // an unreadable body (not JSON, or JSON null) is a server error
    ensures httpMethod == "POST" && ReadField(body, parse, "message").None? ==>
              r == Handled(SuggestionFailed, None)
    // a missing or falsy message is rejected without calling the model
    ensures httpMethod == "POST" && ReadField(body, parse, "message").Some?
            && !Truthy(ReadField(body, parse, "message").value) ==>
              r == Handled(MessageRequired, None)
    // the model is called exactly when a truthy message was read, with that message
    ensures r.modelInput.Some? <==>
              httpMethod == "POST" && ReadField(body, parse, "message").Some?
              && Truthy(ReadField(body, parse, "message").value)
    ensures r.modelInput.Some? ==> r.modelInput == ReadField(body, parse, "message")
    // its reply is passed through unchanged; its failure is a server error
    ensures r.modelInput.Some? && reply.Ok? ==> r.response == Response(200, SuggestionBody(reply.value))
    ensures r.modelInput.Some? && reply.Err? ==> r.response == SuggestionFailed
  {
    if httpMethod != "POST" then Handled(MethodNotAllowed, None)
    else match ReadField(body, parse, "message")
      case None => Handled(SuggestionFailed, None)
      case Some(message) =>
        if !Truthy(message) then Handled(MessageRequired, None)
        else match reply
          case Ok(text) => Handled(Response(200, SuggestionBody(text)), Some(message))
          case Err => Handled(SuggestionFailed, Some(message))
  }

  /** The decision table: every request gets one of four status codes, and
      each code has exactly one cause. */
  lemma {:induction false} StatusCodes(httpMethod: string, body: Option<string>, parse: string -> Option<JsValue>,
                                       reply: Settled<string>)
    ensures var r := Handle(httpMethod, body, parse, reply);
            var field := ReadField(body, parse, "message");
            && r.response.statusCode in {200, 400, 405, 500}
            && (r.response.statusCode == 405 <==> httpMethod != "POST")
            && (r.response.statusCode == 400 <==> httpMethod == "POST" && field.Some? && !Truthy(field.value))
            && (r.response.statusCode == 200 <==>
                  httpMethod == "POST" && field.Some? && Truthy(field.value) && reply.Ok?)
            && (r.response.statusCode == 500 <==>
                  httpMethod == "POST" && (field.None? || (Truthy(field.value) && reply.Err?)))
  {
    var r := Handle(httpMethod, body, parse, reply);
    var field := ReadField(body, parse, "message");
    if httpMethod == "POST" && field.Some? && Truthy(field.value) {
      assert r.modelInput.Some?;
    }
  }

  /** A POST without a body, or with an empty one, reads as `{}`: it has no
      message and is answered 400 without calling the model. */
  lemma {:induction false} EmptyBodyIsBadRequest(body: Option<string>, parse: string -> Option<JsValue>,
                                                  reply: Settled<string>)
    requires ParsesEmptyObject(parse)
    requires body.None? || body == Some("")
    ensures Handle("POST", body, parse, reply) == Handled(MessageRequired, None)
  {
    assert ReadField(body, parse, "message") == Some(Undefined);
  }
}

=== FILE: http.dfy ===
/** What the two serverless handlers share: the response shape and the way
    they read the request body (`JSON.parse(event.body || '{}')` followed by
    object destructuring).
 */
module Http {
  import opened Wrappers
  import opened Js

  /** The JSON object a handler returns as its body. */
  datatype ResponseBody =
    | ErrorBody(error: string)
    | SuggestionBody(suggestion: string)
    | TranscriptionBody(transcription: string)

  datatype Response = Response(statusCode: int, body: ResponseBody)

  const MethodNotAllowed: Response := Response(405, ErrorBody("Method not allowed"))

  /** `event.body || '{}'`: a null or empty body reads as an empty object. */
  function EffectiveBody(body: Option<string>): (r: string)
    ensures r != ""
    ensures body.None? || body.value == "" ==> r == "{}"
    ensures body.Some? && body.value != "" ==> r == body.value
  {
    match body
    case None => "{}"
    case Some(text) => if text == "" then "{}" else text
  }

  /** `JSON.parse` maps `{}` to the empty object, as it does. */
  ghost predicate ParsesEmptyObject(parse: string -> Option<JsValue>) {
    parse("{}") == Some(Object(map[]))
  }

  /** The value destructuring binds to `key`, or None when the handler's
      `try` block throws first: the body is not JSON, or it parses to `null`. */
  function ReadField(body: Option<string>, parse: string -> Option<JsValue>, key: string): (r: Option<JsValue>)
    ensures parse(EffectiveBody(body)).None? ==> r.None?
    ensures parse(EffectiveBody(body)) == Some(Null) ==> r.None?
    ensures parse(EffectiveBody(body)).Some? && parse(EffectiveBody(body)).value.Object? ==>
              r == Some(var f := parse(EffectiveBody(body)).value.fields; if key in f then f[key] else Undefined)
    ensures parse(EffectiveBody(body)).Some? && !parse(EffectiveBody(body)).value.Object?
            && !parse(EffectiveBody(body)).value.Null? && !parse(EffectiveBody(body)).value.Undefined? ==>
              r == Some(Undefined)
  {
    match parse(EffectiveBody(body))
    case None => None
    case Some(v) => GetProperty(v, key)
  }

  /** A request without a body and one with an empty body are read alike,
      whichever field is asked for; when `JSON.parse("{}")` is the empty
      object, every field of such a request is undefined. */
  lemma {:induction false} MissingBodyReadsAsEmpty(parse: string -> Option<JsValue>, key: string)
    ensures ReadField(None, parse, key) == ReadField(Some(""), parse, key)
    ensures ParsesEmptyObject(parse) ==> ReadField(None, parse, key) == Some(Undefined)
  {
    assert EffectiveBody(None) == EffectiveBody(Some(""));
  }
}

=== FILE: js.dfy ===
/** The few JavaScript language rules the client and the serverless handlers lean
    on, stated once: `String.prototype.trim`, truthiness, property access during
    object destructuring, the implicit string conversion `atob` applies to its
    argument, and `split(',')[1]`.
 */
module Js {
  import opened Wrappers

  // ---------------------------------------------------------------------------
  // trim()
  // ---------------------------------------------------------------------------

  /** The code points `String.prototype.trim` removes: the ECMAScript WhiteSpace
      set (TAB, VT, FF, SPACE, NBSP, ZWNBSP and the Unicode Zs category) and the
      LineTerminator set (LF, CR, LS, PS). */
  predicate IsJsWhitespace(c: char) {
    var n := c as int;
    n == 0x09 || n == 0x0A || n == 0x0B || n == 0x0C || n == 0x0D || n == 0x20
    || n == 0xA0 || n == 0x1680 || (0x2000 <= n <= 0x200A) || n == 0x2028
    || n == 0x2029 || n == 0x202F || n == 0x205F || n == 0x3000 || n == 0xFEFF
  }

  /** Every character of `s` is whitespace (this includes the empty string). */
  predicate IsBlank(s: string) {
    forall i :: 0 <= i < |s| ==> IsJsWhitespace(s[i])
  }

  /** `s` with its leading whitespace removed: a suffix of `s` whose dropped
      prefix is blank and which does not itself start with whitespace. */
  function TrimStart(s: string): (r: string)
    ensures |r| <= |s| && r == s[|s| - |r|..]
    ensures IsBlank(s[..|s| - |r|])
    ensures r == [] || !IsJsWhitespace(r[0])
    decreases |s|
  {
    if |s| > 0 && IsJsWhitespace(s[0]) then
      var r := TrimStart(s[1..]);
      TrimStartStep(s, r);
      r
    else s
  }

  /** A blank-prefixed suffix of `s[1..]` is one of `s` when `s[0]` is blank. */
  lemma TrimStartStep(s: string, r: string)
    requires |s| > 0 && IsJsWhitespace(s[0])
    requires |r| <= |s| - 1 && r == s[1..][|s| - 1 - |r|..] && IsBlank(s[1..][..|s| - 1 - |r|])
    ensures r == s[|s| - |r|..] && IsBlank(s[..|s| - |r|])
  {
    assert s[..|s| - |r|] == [s[0]] + s[1..][..|s| - 1 - |r|];
    assert s[1..][|s| - 1 - |r|..] == s[|s| - |r|..];
  }

  /** `s` with its trailing whitespace removed: a prefix of `s` whose dropped
      suffix is blank and which does not itself end with whitespace. */
  function TrimEnd(s: string): (r: string)
    ensures |r| <= |s| && r == s[..|r|]
    ensures IsBlank(s[|r|..])
    ensures r == [] || !IsJsWhitespace(r[|r| - 1])
    decreases |s|
  {
    if |s| > 0 && IsJsWhitespace(s[|s| - 1]) then
      var r := TrimEnd(s[..|s| - 1]);
      TrimEndStep(s, r);
      r
    else s
  }

  /** A blank-suffixed prefix of `s` without its last character is one of `s`
      when that character is blank. */
  lemma TrimEndStep(s: string, r: string)
    requires |s| > 0 && IsJsWhitespace(s[|s| - 1])
    requires |r| <= |s| - 1 && r == s[..|s| - 1][..|r|] && IsBlank(s[..|s| - 1][|r|..])
    ensures r == s[..|r|] && IsBlank(s[|r|..])
  {
    assert s[|r|..] == s[..|s| - 1][|r|..] + [s[|s| - 1]];
    assert s[..|s| - 1][..|r|] == s[..|r|];
  }

  /** Two blank halves make a blank whole. */
  lemma BlankHalves(s: string, i: nat)
    requires i <= |s| && IsBlank(s[..i]) && IsBlank(s[i..])
    ensures IsBlank(s)
  {
    forall k | 0 <= k < |s|
      ensures IsJsWhitespace(s[k])
    {
      if k < i {
        assert s[k] == s[..i][k];
      } else {
        assert s[k] == s[i..][k - i];
      }
    }
  }

  /** Removing whitespace from the front and then from the back leaves a
      blank-bordered slice of `s`, empty exactly when `s` is blank. */
  lemma {:induction false} TrimSlice(s: string, t: string, r: string)
    requires |t| <= |s| && t == s[|s| - |t|..] && IsBlank(s[..|s| - |t|])
    requires |r| <= |t| && r == t[..|r|] && IsBlank(t[|r|..])
    requires r == [] || !IsJsWhitespace(r[0])
    ensures exists i, j :: 0 <= i <= j <= |s| && r == s[i..j] && IsBlank(s[..i]) && IsBlank(s[j..])
    ensures r == "" <==> IsBlank(s)
  {
    var i := |s| - |t|;
    var j := i + |r|;
    assert r == s[i..j];
    assert s[j..] == t[|r|..];
    if r == "" {
      BlankHalves(s, i);
    } else {
      assert r[0] == s[i];
    }
  }

  /** `String.prototype.trim`: the slice of `s` left after removing the
      whitespace at both ends. */
  function Trim(s: string): (r: string)
    ensures exists i, j :: 0 <= i <= j <= |s| && r == s[i..j] && IsBlank(s[..i]) && IsBlank(s[j..])
    ensures r == [] || (!IsJsWhitespace(r[0]) && !IsJsWhitespace(r[|r| - 1]))
    ensures r == "" <==> IsBlank(s)
  {
    var t := TrimStart(s);
    var r := TrimEnd(t);
    assert r == [] || r[0] == t[0];
    TrimSlice(s, t, r);
    r
  }

  // ---------------------------------------------------------------------------
  // JSON values, truthiness and destructuring
  // ---------------------------------------------------------------------------

  /** A value produced by `JSON.parse`, plus `undefined` for a property that is
      not there. JSON numbers are modelled as integers. */
  datatype JsValue =
    | Undefined
    | Null
    | Bool(b: bool)
    | Number(n: int)
    | Str(s: string)
    | Array(elems: seq<JsValue>)
    | Object(fields: map<string, JsValue>)

  /** JavaScript truthiness: `undefined`, `null`, `false`, `0` and `""` are
      falsy; every array and object is truthy. */
  predicate Truthy(v: JsValue) {
    match v
    case Undefined => false
    case Null => false
    case Bool(b) => b
    case Number(n) => n != 0
    case Str(s) => s != ""
    case Array(_) => true
    case Object(_) => true
  }

  /** Reading property `key` of `v` inside `const { key } = v`: a TypeError
      (None) when `v` is `null` or `undefined`, the field's value for an object
      that has it, and `undefined` otherwise. The keys the handlers read
      (`message`, `audioData`, `mimeType`) are not built-in properties of any
      primitive, array or plain object. */
  function GetProperty(v: JsValue, key: string): (r: Option<JsValue>)
    ensures r.None? <==> v.Null? || v.Undefined?
    ensures v.Object? ==> r == Some(if key in v.fields then v.fields[key] else Undefined)
    ensures !v.Object? && !v.Null? && !v.Undefined? ==> r == Some(Undefined)
  {
    match v
    case Undefined => None
    case Null => None
    case Object(fields) => Some(if key in fields then fields[key] else Undefined)
    case _ => Some(Undefined)
  }

  // ---------------------------------------------------------------------------
  // String(v), as applied by atob to its argument
  // ---------------------------------------------------------------------------

  function DigitChar(d: nat): (c: char)
    requires d < 10
    ensures '0' <= c <= '9' && c as int - '0' as int == d
  {
    ('0' as int + d) as char
  }

  predicate AllDigits(s: string) {
    forall i :: 0 <= i < |s| ==> '0' <= s[i] <= '9'
  }

  /** The decimal rendering of `n`: a non-empty run of digits without leading
      zeros, so zero alone renders as "0". */
  function NatToDecimal(n: nat): (r: string)
    ensures |r| > 0 && AllDigits(r)
    ensures r[0] == '0' <==> n == 0
    ensures n == 0 ==> r == "0"
    decreases n
  {
    if n < 10 then [DigitChar(n)]
    else
      var high := NatToDecimal(n / 10);
      assert (high + [DigitChar(n % 10)])[0] == high[0];
      high + [DigitChar(n % 10)]
  }

  /** The number a run of decimal digits denotes, read from the left. */
  function DecimalValue(s: string): nat
    requires AllDigits(s)
  {
    if |s| == 0 then 0
    else DecimalValue(s[..|s| - 1]) * 10 + (s[|s| - 1] as int - '0' as int)
  }

  /** Reading a rendered number back gives the number. */
  lemma {:induction false} NatToDecimalRoundTrip(n: nat)
    ensures DecimalValue(NatToDecimal(n)) == n
    decreases n
  {
    var r := NatToDecimal(n);
    if n >= 10 {
      NatToDecimalRoundTrip(n / 10);
      assert r[..|r| - 1] == NatToDecimal(n / 10);
    }
  }

  /** `Array.prototype.join` with separator ",". */
  function JoinComma(parts: seq<string>): string
  {
    if |parts| == 0 then ""
    else if |parts| == 1 then parts[0]
    else parts[0] + "," + JoinComma(parts[1..])
  }

  /** `String(v)`: arrays join their elements with "," rendering `null` and
      `undefined` elements as "", plain objects print as "[object Object]". */
  function ToJsString(v: JsValue): (r: string)
    ensures v.Str? ==> r == v.s
    ensures v.Number? ==>
              && |r| > 0
              && (r[0] == '-' <==> v.n < 0)
              && var digits := if v.n < 0 then r[1..] else r;
                 && AllDigits(digits) && DecimalValue(digits) == (if v.n < 0 then -v.n else v.n)
                 && (digits[0] == '0' ==> digits == "0")
    decreases v
  {
    match v
    case Undefined => "undefined"
    case Null => "null"
    case Bool(b) => if b then "true" else "false"
    case Number(n) =>
      var digits := NatToDecimal(if n < 0 then -n else n);
      NatToDecimalRoundTrip(if n < 0 then -n else n);
      if n < 0 then "-" + digits else digits
    case Str(s) => s
    case Array(es) =>
      JoinComma(seq(|es|, i requires 0 <= i < |es| =>
        if es[i].Null? || es[i].Undefined? then "" else ToJsString(es[i])))
    case Object(_) => "[object Object]"
  }

  /** An array of one defined element prints as that element, and an empty
      array (or one holding only `null` or `undefined`) prints as "". */
  lemma {:induction false} ShortArraysPrintAsTheirElement(x: JsValue)
    ensures !x.Null? && !x.Undefined? ==> ToJsString(Array([x])) == ToJsString(x)
    ensures x.Null? || x.Undefined? ==> ToJsString(Array([x])) == ""
    ensures ToJsString(Array([])) == ""
  {
    var parts := seq(1, i requires 0 <= i < 1 => if [x][i].Null? || [x][i].Undefined? then "" else ToJsString([x][i]));
    assert ToJsString(Array([x])) == JoinComma(parts);
    assert |parts| == 1;
  }

  // ---------------------------------------------------------------------------
  // s.split(',')[1]
  // ---------------------------------------------------------------------------

  /** The text before the first comma of `s` (all of `s` when it has none). */
  function BeforeComma(s: string): (r: string)
    ensures ',' !in r
    ensures |r| <= |s| && r == s[..|r|]
    ensures |r| < |s| ==> s[|r|] == ','
  {
    if |s| == 0 || s[0] == ',' then [] else [s[0]] + BeforeComma(s[1..])
  }

  /** The text after the first comma of `s`, or None when `s` has no comma. */
  function AfterComma(s: string): (r: Option<string>)
    ensures r.None? <==> ',' !in s
    ensures r.Some? ==> exists i :: 0 <= i < |s| && s[i] == ',' && ',' !in s[..i] && r.value == s[i + 1..]
  {
    if |s| == 0 then None
    else if s[0] == ',' then
      assert s[..0] == [];
      Some(s[1..])
    else
      match AfterComma(s[1..])
      case None => None
      case Some(t) =>
        var i :| 0 <= i < |s| - 1 && s[1..][i] == ',' && ',' !in s[1..][..i] && t == s[1..][i + 1..];
        assert s[..i + 1] == [s[0]] + s[1..][..i];
        assert t == s[i + 2..];
        Some(t)
  }

  /** `s.split(',')[1]`: the second comma-separated field of `s`, or
      `undefined` (None) when `s` contains no comma. */
  function SplitSecond(s: string): (r: Option<string>)
    ensures r.None? <==> ',' !in s
    ensures r.Some? ==> ',' !in r.value
    ensures r.Some? ==>
              exists i :: 0 <= i < |s| && s[i] == ',' && ',' !in s[..i]
                          && i + 1 + |r.value| <= |s| && r.value == s[i + 1..i + 1 + |r.value|]
                          && (i + 1 + |r.value| == |s| || s[i + 1 + |r.value|] == ',')
  {
    match AfterComma(s)
    case None => None
    case Some(t) =>
      var b := BeforeComma(t);
      FieldAfterComma(s, t, b);
      Some(b)
  }

  /** The comma-free prefix `b` of the text `t` after the first comma of `s`
      is the field between that comma and the next one (or the end). */
  lemma FieldAfterComma(s: string, t: string, b: string)
    requires exists i :: 0 <= i < |s| && s[i] == ',' && ',' !in s[..i] && t == s[i + 1..]
    requires |b| <= |t| && b == t[..|b|] && (|b| < |t| ==> t[|b|] == ',')
    ensures exists i :: 0 <= i < |s| && s[i] == ',' && ',' !in s[..i]
                        && i + 1 + |b| <= |s| && b == s[i + 1..i + 1 + |b|]
                        && (i + 1 + |b| == |s| || s[i + 1 + |b|] == ',')
  {
    var i :| 0 <= i < |s| && s[i] == ',' && ',' !in s[..i] && t == s[i + 1..];
    assert b == s[i + 1..i + 1 + |b|];
  }

  /** A data URL `prefix,payload` whose prefix and payload hold no comma yields
      exactly its payload. */
  lemma {:induction false} SplitSecondOfDataUrl(prefix: string, payload: string)
    requires ',' !in prefix && ',' !in payload
    ensures SplitSecond(prefix + "," + payload) == Some(payload)
  {
    AfterCommaSkipsPrefix(prefix, payload);
    BeforeCommaWhole(payload);
  }

  lemma {:induction false} AfterCommaSkipsPrefix(prefix: string, rest: string)
    requires ',' !in prefix
    ensures AfterComma(prefix + "," + rest) == Some(rest)
    decreases |prefix|
  {
    if |prefix| == 0 {
      assert prefix + "," + rest == [','] + rest;
    } else {
      assert (prefix + "," + rest)[1..] == prefix[1..] + "," + rest;
      AfterCommaSkipsPrefix(prefix[1..], rest);
    }
  }

  lemma BeforeCommaWhole(s: string)
    requires ',' !in s
    ensures BeforeComma(s) == s
  {
  }
}

=== FILE: message_view.dfy ===
/** The decisions the message bubble makes (components/Message.tsx): which side
    a message sits on, when the sparkle button toggles the reflection card,
    and which card is shown. Class names and markup are left out.
 */
module MessageView {
  import opened Wrappers
  import opened Types
  import opened Enrichment
  import opened Voice

  /** JavaScript truthiness of the optional `suggestion` field: absent and
      `""` are falsy, any other string and any object are truthy. */
  predicate SuggestionTruthy(s: Option<SuggestionValue>) {
    match s
    case None => false
    case Some(Text(t)) => t != ""
    case Some(Structured(_)) => true
  }

  /** `typeof suggestion === 'string'`. */
  predicate IsSuggestionError(m: Message) {
    m.suggestion.Some? && m.suggestion.value.Text?
  }

  /** `message.sender === currentUser`. */
  predicate IsSentByCurrentUser(m: Message, currentUser: User) {
    m.sender == currentUser
  }

  /** The other participant. */
  function Other(u: User): User {
    match u
    case Alex => Ben
    case Ben => Alex
  }

  /** Whichever participant is viewing, a message appears as sent by exactly
      one of the two: its sender. */
  lemma {:induction false} ExactlyOneSeesItAsSent(m: Message, viewer: User)
    ensures IsSentByCurrentUser(m, viewer) != IsSentByCurrentUser(m, Other(viewer))
    ensures IsSentByCurrentUser(m, viewer) <==> viewer == m.sender
  {
  }

  /** The sparkle button is shown when there is a truthy suggestion or one is
      loading. */
  predicate ShowsSparkle(m: Message) {
    SuggestionTruthy(m.suggestion) || m.suggestionLoading
  }

  /** `handleSuggestionClick`: the new `showSuggestion`. The state flips
      exactly when the sparkle button is on screen, and is kept otherwise. */
  function ToggleSuggestion(m: Message, show: bool): (r: bool)
    ensures r != show <==> ShowsSparkle(m)
  {
    if SuggestionTruthy(m.suggestion) || m.suggestionLoading then !show else show
  }

  /** What `AiReflectionCard` renders. */
  datatype Card =
    | LoadingSkeleton
    | NoCard
    | ErrorCard(text: string)
    | StructuredCard(mood: Option<string>, acknowledgement: string, encouragement: string, question: Option<string>)

  /** A string field rendered with `field && …`: shown only when truthy. */
  function Shown(s: string): (r: Option<string>)
    ensures r.Some? <==> s != ""
    ensures r.Some? ==> r.value == s
  {
    if s != "" then Some(s) else None
  }

  /** The branch selection of `AiReflectionCard`: loading first, whatever the
      suggestion; then nothing for a falsy suggestion; then any string as an
      error; otherwise the structured card, with the mood and the reflection
      question only when they are truthy. */
  function ReflectionCard(m: Message): (c: Card)
    ensures m.suggestionLoading ==> c == LoadingSkeleton
    ensures !m.suggestionLoading && !SuggestionTruthy(m.suggestion) ==> c == NoCard
    ensures !m.suggestionLoading && SuggestionTruthy(m.suggestion) && IsSuggestionError(m) ==>
              c == ErrorCard(m.suggestion.value.text)
    ensures c.StructuredCard? <==> !m.suggestionLoading && m.suggestion.Some? && m.suggestion.value.Structured?
    ensures c.StructuredCard? ==>
              var s := m.suggestion.value.structured;
              && c.acknowledgement == s.acknowledgement
              && c.encouragement == s.encouragement
              && c.mood == Shown(s.mood)
              && c.question == (if s.reflectionQuestion.Some? then Shown(s.reflectionQuestion.value) else None)
              && (c.mood.Some? <==> s.mood != "")
              && (c.question.Some? <==> s.reflectionQuestion.Some? && s.reflectionQuestion.value != "")
  {
    if m.suggestionLoading then LoadingSkeleton
    else if !SuggestionTruthy(m.suggestion) then NoCard
    else match m.suggestion.value
      case Text(t) => ErrorCard(t)
      case Structured(s) =>
        StructuredCard(Shown(s.mood), s.acknowledgement, s.encouragement,
                       match s.reflectionQuestion
                       case None => None
                       case Some(q) => Shown(q))
  }

  /** The card below the bubble: rendered only while `showSuggestion` is set. */
  function VisibleCard(m: Message, show: bool): (r: Option<Card>)
    ensures r.Some? <==> show
    ensures r.Some? ==> r.value == ReflectionCard(m)
  {
    if show then Some(ReflectionCard(m)) else None
  }

  /** The error card appears exactly for a loaded, non-empty string
      suggestion, and shows that string; a loaded truthy suggestion gets
      either the error card or the structured card, never both. */
  lemma {:induction false} ErrorCardExactlyForStrings(m: Message)
    ensures ReflectionCard(m).ErrorCard? <==>
              !m.suggestionLoading && IsSuggestionError(m) && m.suggestion.value.text != ""
    ensures ReflectionCard(m).ErrorCard? ==> ReflectionCard(m).text == m.suggestion.value.text
    ensures !m.suggestionLoading && SuggestionTruthy(m.suggestion) ==>
              ReflectionCard(m).ErrorCard? != ReflectionCard(m).StructuredCard?
  {
  }

  /** The `showSuggestion` state after `n` clicks on a freshly rendered
      bubble (the state starts false). */
  function ShowAfterClicks(m: Message, n: nat): bool {
    if n == 0 then false else ToggleSuggestion(m, ShowAfterClicks(m, n - 1))
  }

  /** Clicking the sparkle button repeatedly opens and closes the card: after
      `n` clicks it is on screen exactly when the button is shown and `n` is
      odd, and it is then the card the branch choice selects. A bubble without
      the button never shows a card, however often it is clicked. */
  lemma {:induction false} ClicksAlternateCard(m: Message, n: nat)
    ensures VisibleCard(m, ShowAfterClicks(m, n)).Some? <==> ShowsSparkle(m) && n % 2 == 1
    ensures VisibleCard(m, ShowAfterClicks(m, n)).Some? ==>
              VisibleCard(m, ShowAfterClicks(m, n)).value == ReflectionCard(m)
  {
    if n > 0 {
      ClicksAlternateCard(m, n - 1);
    }
  }

  /** What a message sent from the outbox shows over its life. While the
      suggestion is pending the skeleton is shown. Once resolved, the card is
      an error card in every case: the success path stores the endpoint's
      reply as a plain string, which the bubble classifies as an error (or
      shows nothing for an empty reply). No send ever yields a structured
      card. */
  lemma {:induction false} SentMessageNeverShowsStructuredCard(
    queue: seq<QueuedMessage>, sender: User, nowIso: string, id: string, suggest: Settled<string>)
    requires |queue| > 0
    ensures var r := SendQueue(queue, sender, nowIso, Ok(id), suggest);
            var stored := r.inserted.value.WithId(id);
            var resolved := ApplyPatch(stored, r.patch.value);
            && ReflectionCard(stored) == LoadingSkeleton
            && ReflectionCard(resolved)
               == (if suggest.Err? then ErrorCard(SuggestionErrorText)
                   else if suggest.value == "" then NoCard
                   else ErrorCard(suggest.value))
            && !ReflectionCard(resolved).StructuredCard?
  {
  }

  /** A voice note is stored without a suggestion and not loading: it shows no
      sparkle button, clicking cannot open a card, and its card is empty. */
  lemma {:induction false} VoiceNoteHasNoReflection(
    draft: string, sender: User, nowIso: string, url: string, id: string,
    insert: Settled<()>, tx: Settled<Js.JsValue>, show: bool)
    ensures var m := SendVoiceMessage(draft, sender, nowIso, Some(url), insert, tx).placeholder.value.WithId(id);
            !ShowsSparkle(m) && ToggleSuggestion(m, show) == show && ReflectionCard(m) == NoCard
  {
  }
}

=== FILE: outbox.dfy ===
/** The outbox queue of the composer (App.tsx `handleAddToQueue`,
    `handleDeleteFromQueue` and the text `handleSendQueue` combines). The clock
    readings `Date.now()` and `new Date().toISOString()` are inputs.
 */
module Outbox {
  import opened Js
  import opened Types
  import opened Seqs

  /** The composer's local state: queued drafts and the text box. */
  datatype Composer = Composer(queue: seq<QueuedMessage>, draft: string)

  // ---------------------------------------------------------------------------
  // Enqueue
  // ---------------------------------------------------------------------------

  /** `handleAddToQueue` at clock reading `now` (milliseconds) and `nowIso`.
      A blank draft changes nothing; otherwise the untrimmed draft is appended
      as one new entry and the text box is cleared. */
  function AddToQueue(c: Composer, now: int, nowIso: string): (r: Composer)
    ensures IsBlank(c.draft) ==> r == c
    ensures !IsBlank(c.draft) ==>
              && |r.queue| == |c.queue| + 1
              && r.queue[..|c.queue|] == c.queue
              && r.queue[|c.queue|] == QueuedMessage(now, c.draft, nowIso)
              && r.draft == ""
  {
    if Trim(c.draft) == "" then c
    else Composer(c.queue + [QueuedMessage(now, c.draft, nowIso)], "")
  }

  // ---------------------------------------------------------------------------
  // Remove by id
  // ---------------------------------------------------------------------------

  /** The filter test of `handleDeleteFromQueue(id)`: `item.id !== id`. */
  function OtherEntry(id: int): QueuedMessage -> bool {
    (m: QueuedMessage) => m.id != id
  }

  /** `handleDeleteFromQueue(id)`: the queue filtered to the entries whose id
      differs from `id`. Every entry carrying `id` goes, including several
      enqueued within the same millisecond. */
  function DeleteFromQueue(q: seq<QueuedMessage>, id: int): (r: seq<QueuedMessage>)
    ensures forall m :: m in r <==> m in q && m.id != id
    ensures |r| <= |q|
  {
    Filter(q, OtherEntry(id))
  }

  /** Removal keeps the relative order of the surviving entries. */
  lemma {:induction false} DeleteKeepsOrder(a: seq<QueuedMessage>, b: seq<QueuedMessage>, id: int)
    ensures DeleteFromQueue(a + b, id) == DeleteFromQueue(a, id) + DeleteFromQueue(b, id)
  {
    FilterDistributes(a, b, OtherEntry(id));
  }

  /** Removing an id no entry carries leaves the queue as it was. */
  lemma {:induction false} DeleteAbsentIsNoOp(q: seq<QueuedMessage>, id: int)
    requires forall m :: m in q ==> m.id != id
    ensures DeleteFromQueue(q, id) == q
  {
    FilterKeepsAll(q, OtherEntry(id));
  }

  /** Removing twice is removing once. */
  lemma {:induction false} DeleteIdempotent(q: seq<QueuedMessage>, id: int)
    ensures DeleteFromQueue(DeleteFromQueue(q, id), id) == DeleteFromQueue(q, id)
  {
    FilterIdempotent(q, OtherEntry(id));
  }

  /** Removing the id of the entry just added restores the queue, provided the
      clock reading was not already in use; entries sharing a millisecond are
      removed together, since `DeleteFromQueue` drops every match. */
  lemma {:induction false} DeleteUndoesAdd(c: Composer, now: int, nowIso: string)
    requires !IsBlank(c.draft)
    requires forall m :: m in c.queue ==> m.id != now
    ensures DeleteFromQueue(AddToQueue(c, now, nowIso).queue, now) == c.queue
  {
    var e := QueuedMessage(now, c.draft, nowIso);
    assert AddToQueue(c, now, nowIso).queue == c.queue + [e];
    DeleteKeepsOrder(c.queue, [e], now);
    DeleteAbsentIsNoOp(c.queue, now);
    assert DeleteFromQueue([e], now) == [];
  }

  // ---------------------------------------------------------------------------
  // Combining the queue into one message text
  // ---------------------------------------------------------------------------

  /** One queue entry as a line of the combined message: `[timestamp] text`. */
  function Line(m: QueuedMessage): string {
    "[" + m.timestamp + "] " + m.text
  }

  /** `queue.map(item => `[${item.timestamp}] ${item.text}`).join('\n')`,
      stated recursively on the head of the queue. */
  function CombinedText(q: seq<QueuedMessage>): (r: string)
    ensures r == "" <==> |q| == 0
    ensures |q| > 0 ==> |Line(q[0])| <= |r| && r[..|Line(q[0])|] == Line(q[0])
  {
    if |q| == 0 then ""
    else if |q| == 1 then Line(q[0])
    else Line(q[0]) + "\n" + CombinedText(q[1..])
  }

  /** Appending one entry to a non-empty queue appends one more line. */
  lemma {:induction false} CombinedTextSnoc(q: seq<QueuedMessage>, m: QueuedMessage)
    requires |q| > 0
    ensures CombinedText(q + [m]) == CombinedText(q) + "\n" + Line(m)
    decreases |q|
  {
    if |q| == 1 {
      assert q + [m] == [q[0], m];
      assert (q + [m])[1..] == [m];
    } else {
      assert (q + [m])[1..] == q[1..] + [m];
      CombinedTextSnoc(q[1..], m);
    }
  }

  /** Combining keeps queue order: the text of two non-empty queues back to
      back is the two texts joined by one newline. */
  lemma {:induction false} CombinedTextAppend(a: seq<QueuedMessage>, b: seq<QueuedMessage>)
    requires |a| > 0 && |b| > 0
    ensures CombinedText(a + b) == CombinedText(a) + "\n" + CombinedText(b)
    decreases |a|
  {
    var ab := a + b;
    assert ab[0] == a[0] && |ab| > 1;
    if |a| == 1 {
      assert ab[1..] == b;
      assert CombinedText(ab) == Line(a[0]) + "\n" + CombinedText(b);
    } else {
      assert ab[1..] == a[1..] + b;
      CombinedTextAppend(a[1..], b);
      calc {
        CombinedText(ab);
        Line(a[0]) + "\n" + CombinedText(a[1..] + b);
        Line(a[0]) + "\n" + (CombinedText(a[1..]) + "\n" + CombinedText(b));
        (Line(a[0]) + "\n" + CombinedText(a[1..])) + "\n" + CombinedText(b);
      }
    }
  }

  /** The combined text computed the way the handler does it: map every entry
      to its line, then join the lines with "\n" from left to right. */
  method CombineQueue(q: seq<QueuedMessage>) returns (text: string)
    ensures text == CombinedText(q)
    ensures |q| == 0 <==> text == ""
  {
    text := "";
    var i := 0;
    while i < |q|
      invariant 0 <= i <= |q|
      invariant text == CombinedText(q[..i])
      invariant i > 0 ==> |text| > 0
    {
      if i == 0 {
        text := Line(q[0]);
        assert q[..1] == [q[0]];
      } else {
        CombinedTextSnoc(q[..i], q[i]);
        assert q[..i + 1] == q[..i] + [q[i]];
        text := text + "\n" + Line(q[i]);
      }
      i := i + 1;
    }
    assert q[..|q|] == q;
  }
}

=== FILE: seqs.dfy ===
/** `Array.prototype.filter`, the one list operation both the outbox and the
    task mirror use, with the facts about it the model relies on. */
module Seqs {

  /** The elements of `s` that satisfy `keep`, in their original order. */
  function Filter<T(!new)>(s: seq<T>, keep: T -> bool): (r: seq<T>)
    ensures forall x :: x in r <==> x in s && keep(x)
    ensures |r| <= |s|
  {
    if |s| == 0 then []
    else (if keep(s[0]) then [s[0]] else []) + Filter(s[1..], keep)
  }

  /** Filtering keeps relative order: it distributes over concatenation. */
  lemma {:induction false} FilterDistributes<T(!new)>(a: seq<T>, b: seq<T>, keep: T -> bool)
    ensures Filter(a + b, keep) == Filter(a, keep) + Filter(b, keep)
    decreases |a|
  {
    if |a| == 0 {
      assert a + b == b;
    } else {
      assert (a + b)[1..] == a[1..] + b;
      FilterDistributes(a[1..], b, keep);
    }
  }

  /** When every element is kept the sequence comes back unchanged. */
  lemma {:induction false} FilterKeepsAll<T(!new)>(s: seq<T>, keep: T -> bool)
    requires forall x :: x in s ==> keep(x)
    ensures Filter(s, keep) == s
    decreases |s|
  {
    if |s| > 0 {
      assert s[0] in s;
      assert forall x :: x in s[1..] ==> x in s;
      FilterKeepsAll(s[1..], keep);
      assert s == [s[0]] + s[1..];
    }
  }

  /** Filtering twice with the same test is filtering once. */
  lemma {:induction false} FilterIdempotent<T(!new)>(s: seq<T>, keep: T -> bool)
    ensures Filter(Filter(s, keep), keep) == Filter(s, keep)
  {
    FilterKeepsAll(Filter(s, keep), keep);
  }
}

=== FILE: storage.dfy ===
/** Client-side persisted state (App.tsx `getInitialState` and the two
    `localStorage` keys). Storage is a key-to-string map; `JSON.parse` and
    `JSON.stringify` are parameters, and the round trip between them is a
    precondition of the lemmas that need it rather than something proved here.
 */
module Storage {
  import opened Wrappers
  import opened Types

  /** The browser's `localStorage`: string keys to string values. */
  type Store = map<string, string>

  const QueueKey: string := "chat_app_messageQueue"
  const UserKey: string := "chat_app_currentUser"

  /** The user selected when nothing usable is stored. */
  const DefaultUser: User := Alex

  /** `getInitialState(key, fallback)`. `storage` is Err when reading
      `localStorage` throws; `parse` is `JSON.parse` at the caller's type, None
      when it throws. The stored value is used only when the key is present,
      the stored string is non-empty (truthy) and it parses. */
  function GetInitialState<T>(storage: Settled<Store>, key: string, fallback: T,
                              parse: string -> Option<T>): (r: T)
    ensures (storage.Ok? && key in storage.value && storage.value[key] != ""
             && parse(storage.value[key]).Some?)
            ==> r == parse(storage.value[key]).value
    ensures (storage.Err? || key !in storage.value || storage.value[key] == ""
             || parse(storage.value[key]).None?)
            ==> r == fallback
  {
    if storage.Err? then fallback
    else if key in storage.value && storage.value[key] != "" then
      match parse(storage.value[key])
      case Some(v) => v
      case None => fallback
    else fallback
  }

  /** The effect that writes `v` under `key` (`localStorage.setItem(key, JSON.stringify(v))`). */
  function Save<T>(store: Store, key: string, v: T, stringify: T -> string): (s: Store)
    ensures key in s && s[key] == stringify(v)
    ensures forall k :: k in store && k != key ==> k in s && s[k] == store[k]
    ensures s.Keys == store.Keys + {key}
  {
    store[key := stringify(v)]
  }

  /** `JSON.stringify` followed by `JSON.parse` gives back `v`, and the text
      is never empty (it is at least `[]` or a quoted string). */
  ghost predicate RoundTrips<T>(v: T, stringify: T -> string, parse: string -> Option<T>) {
    stringify(v) != "" && parse(stringify(v)) == Some(v)
  }

  /** The outbox queue at start-up: the stored queue, or the empty queue. */
  function InitialQueue(storage: Settled<Store>, parse: string -> Option<seq<QueuedMessage>>): seq<QueuedMessage>
  {
    GetInitialState(storage, QueueKey, [], parse)
  }

  /** The selected user at start-up: the stored user, or Alex. */
  function InitialUser(storage: Settled<Store>, parse: string -> Option<User>): User
  {
    GetInitialState(storage, UserKey, DefaultUser, parse)
  }

  /** A key that was never written, or was written as an empty string, yields
      the fallback, whatever the parser does. */
  lemma {:induction false} AbsentOrEmptyYieldsFallback<T>(store: Store, key: string, fallback: T,
                                                          parse: string -> Option<T>)
    requires key !in store || store[key] == ""
    ensures GetInitialState(Ok(store), key, fallback, parse) == fallback
  {
  }

  /** Whatever was saved last under `key` is what the next start-up reads. */
  lemma {:induction false} RehydrateAfterSave<T>(store: Store, key: string, v: T, fallback: T,
                                                 stringify: T -> string, parse: string -> Option<T>)
    requires RoundTrips(v, stringify, parse)
    ensures GetInitialState(Ok(Save(store, key, v, stringify)), key, fallback, parse) == v
  {
  }

  /** The queue and the selected user live under different keys: saving each
      after every change and restarting restores both. */
  lemma {:induction false} QueueAndUserRehydrateIndependently(
    store: Store, q: seq<QueuedMessage>, u: User,
    stringifyQueue: seq<QueuedMessage> -> string, parseQueue: string -> Option<seq<QueuedMessage>>,
    stringifyUser: User -> string, parseUser: string -> Option<User>)
    requires RoundTrips(q, stringifyQueue, parseQueue)
    requires RoundTrips(u, stringifyUser, parseUser)
    ensures var s := Save(Save(store, QueueKey, q, stringifyQueue), UserKey, u, stringifyUser);
            InitialQueue(Ok(s), parseQueue) == q && InitialUser(Ok(s), parseUser) == u
  {
    var s1 := Save(store, QueueKey, q, stringifyQueue);
    var s := Save(s1, UserKey, u, stringifyUser);
    assert QueueKey != UserKey;
    assert s[QueueKey] == s1[QueueKey];
  }
}

=== FILE: sync.dfy ===
/** The realtime fold functions (App.tsx, the three `.on('postgres_changes', …)`
    handlers): how one change event on the `messages`, `tasks` and `themes`
    tables updates the client's mirror. Subscribing and unsubscribing the
    channel is the transport's business; events arrive here one at a time, in
    delivery order.
 */
module Sync {
  import opened Types
  import opened Seqs

  /** The `eventType` of a change payload. */
  datatype EventKind = Insert | Update | Delete

  /** A record in a change payload: the row, or the empty object `{}` the
      transport sends as `new` for a DELETE. */
  datatype Row<T> = Row(value: T) | EmptyRow

  /** A change on `messages`; only `new` is read. */
  datatype MessageEvent = MessageEvent(kind: EventKind, newRecord: Row<Message>)

  /** A change on `tasks`, with the record each kind reads: `new` for INSERT
      and UPDATE, `old` for DELETE. */
  datatype TaskEvent = TaskInserted(newRecord: Task) | TaskUpdated(newRecord: Task) | TaskDeleted(oldRecord: Task)

  /** The `themes` row `{user, theme: {themeColor}}`. */
  datatype ThemeRow = ThemeRow(user: User, themeColor: ThemeColor)

  /** A change on `themes` carrying a row as `new`. */
  datatype ThemeEvent = ThemeEvent(kind: EventKind, newRecord: ThemeRow)

  /** TypeScript's `Record<User, T>`: one value for each of the two
      participants, so every lookup is defined. */
  datatype PerUser<T> = PerUser(alex: T, ben: T) {

    function Get(u: User): T {
      match u
      case Alex => alex
      case Ben => ben
    }

    /** `{...this, [u]: v}`: `u` now maps to `v`, the other participant keeps
        their value. */
    function Set(u: User, v: T): (r: PerUser<T>)
      ensures r.Get(u) == v
      ensures forall w :: w != u ==> r.Get(w) == Get(w)
    {
      match u
      case Alex => this.(alex := v)
      case Ben => this.(ben := v)
    }
  }

  type TaskLists = PerUser<seq<Task>>
  type SettingsMap = PerUser<UserSettings>

  /** The mirrors before any event (the initial `useState` values): no tasks,
      Alex on fuchsia and Ben on cyan. */
  const InitialTasks: TaskLists := PerUser([], [])
  const InitialSettings: SettingsMap := PerUser(UserSettings(Fuchsia), UserSettings(Cyan))

  // ---------------------------------------------------------------------------
  // messages
  // ---------------------------------------------------------------------------

  /** The messages handler: `new` is appended whatever the event type. */
  function FoldMessage(mirror: seq<Row<Message>>, e: MessageEvent): (r: seq<Row<Message>>)
    ensures |r| == |mirror| + 1
    ensures r[..|mirror|] == mirror && r[|mirror|] == e.newRecord
  {
    mirror + [e.newRecord]
  }

  /** The mirror after a run of events. */
  function FoldMessages(mirror: seq<Row<Message>>, events: seq<MessageEvent>): seq<Row<Message>>
    decreases |events|
  {
    if |events| == 0 then mirror else FoldMessages(FoldMessage(mirror, events[0]), events[1..])
  }

  /** Every event adds exactly one entry, in arrival order, and nothing already
      in the mirror moves or changes. */
  lemma {:induction false} FoldMessagesAppends(mirror: seq<Row<Message>>, events: seq<MessageEvent>)
    ensures var r := FoldMessages(mirror, events);
            && |r| == |mirror| + |events|
            && r[..|mirror|] == mirror
            && forall i :: 0 <= i < |events| ==> r[|mirror| + i] == events[i].newRecord
    decreases |events|
  {
    if |events| > 0 {
      var next := FoldMessage(mirror, events[0]);
      FoldMessagesAppends(next, events[1..]);
      var r := FoldMessages(mirror, events);
      assert r == FoldMessages(next, events[1..]);
      assert r[..|mirror|] == next[..|next|][..|mirror|];
      forall i | 0 <= i < |events|
        ensures r[|mirror| + i] == events[i].newRecord
      {
        if i > 0 {
          assert r[|next| + (i - 1)] == events[1..][i - 1].newRecord;
        } else {
          assert r[..|next|] == next;
        }
      }
    }
  }

  /** An UPDATE on a message already in the mirror does not replace it: the
      mirror then holds both the old and the new version under the same id. */
  lemma {:induction false} MessageUpdateAddsSecondCopy(mirror: seq<Row<Message>>, i: int, m: Message)
    requires 0 <= i < |mirror| && mirror[i].Row? && mirror[i].value.id == m.id
    ensures var r := FoldMessage(mirror, MessageEvent(Update, Row(m)));
            && |r| == |mirror| + 1
            && r[i] == mirror[i]
            && r[|mirror|] == Row(m)
  {
  }

  // ---------------------------------------------------------------------------
  // tasks
  // ---------------------------------------------------------------------------

  /** `tasks.map(task => task.id === t.id ? t : task)`. */
  function ReplaceById(tasks: seq<Task>, t: Task): (r: seq<Task>)
    ensures |r| == |tasks|
    ensures forall i :: 0 <= i < |tasks| ==> r[i] == (if tasks[i].id == t.id then t else tasks[i])
  {
    if |tasks| == 0 then []
    else [if tasks[0].id == t.id then t else tasks[0]] + ReplaceById(tasks[1..], t)
  }

  /** The filter test of the DELETE branch: `task.id !== id`. */
  function OtherTask(id: string): Task -> bool {
    (t: Task) => t.id != id
  }

  /** `tasks.filter(task => task.id !== id)`. */
  function RemoveById(tasks: seq<Task>, id: string): (r: seq<Task>)
    ensures forall t :: t in r <==> t in tasks && t.id != id
  {
    Filter(tasks, OtherTask(id))
  }

  /** The DELETE filter keeps the survivors in their order: it works entry by
      entry and distributes over concatenation. */
  lemma {:induction false} RemoveByIdKeepsOrder(a: seq<Task>, b: seq<Task>, id: string)
    ensures RemoveById(a + b, id) == RemoveById(a, id) + RemoveById(b, id)
    ensures forall t :: RemoveById([t], id) == (if t.id != id then [t] else [])
  {
    FilterDistributes(a, b, OtherTask(id));
    forall t
      ensures RemoveById([t], id) == (if t.id != id then [t] else [])
    {
      assert [t][1..] == [];
    }
  }

  /** The participant whose list an event touches. */
  function Owner(e: TaskEvent): User {
    match e
    case TaskInserted(t) => t.user
    case TaskUpdated(t) => t.user
    case TaskDeleted(t) => t.user
  }

  /** The tasks handler. INSERT appends to the owner's list, UPDATE replaces
      the owner's entries with a matching id in place, DELETE drops the owner's
      entries whose id matches `old.id`. Only the owner's list changes. */
  function FoldTask(lists: TaskLists, e: TaskEvent): (r: TaskLists)
    ensures forall u :: u != Owner(e) ==> r.Get(u) == lists.Get(u)
    ensures e.TaskInserted? ==> r.Get(Owner(e)) == lists.Get(Owner(e)) + [e.newRecord]
    ensures e.TaskUpdated? ==>
              && |r.Get(Owner(e))| == |lists.Get(Owner(e))|
              && forall i :: 0 <= i < |lists.Get(Owner(e))| ==>
                   r.Get(Owner(e))[i] == (if lists.Get(Owner(e))[i].id == e.newRecord.id then e.newRecord else lists.Get(Owner(e))[i])
    ensures e.TaskDeleted? ==>
              forall t :: t in r.Get(Owner(e)) <==> t in lists.Get(Owner(e)) && t.id != e.oldRecord.id
    // the survivors keep their order (RemoveByIdKeepsOrder)
    ensures e.TaskDeleted? ==> r.Get(Owner(e)) == RemoveById(lists.Get(Owner(e)), e.oldRecord.id)
  {
    match e
    case TaskInserted(t) => lists.Set(t.user, lists.Get(t.user) + [t])
    case TaskUpdated(t) => lists.Set(t.user, ReplaceById(lists.Get(t.user), t))
    case TaskDeleted(t) => lists.Set(t.user, RemoveById(lists.Get(t.user), t.id))
  }

  /** An UPDATE for an id the owner's list does not hold changes nothing. */
  lemma {:induction false} TaskUpdateAbsentIsNoOp(lists: TaskLists, t: Task)
    requires forall x :: x in lists.Get(t.user) ==> x.id != t.id
    ensures FoldTask(lists, TaskUpdated(t)) == lists
  {
    var l := lists.Get(t.user);
    var l' := ReplaceById(l, t);
    forall i | 0 <= i < |l|
      ensures l'[i] == l[i]
    {
      assert l[i] in l;
    }
    assert l' == l;
  }

  /** A DELETE for an id the owner's list does not hold changes nothing. */
  lemma {:induction false} TaskDeleteAbsentIsNoOp(lists: TaskLists, t: Task)
    requires forall x :: x in lists.Get(t.user) ==> x.id != t.id
    ensures FoldTask(lists, TaskDeleted(t)) == lists
  {
    FilterKeepsAll(lists.Get(t.user), OtherTask(t.id));
  }

  /** The same DELETE delivered twice has the effect of delivering it once. */
  lemma {:induction false} TaskDeleteIdempotent(lists: TaskLists, t: Task)
    ensures FoldTask(FoldTask(lists, TaskDeleted(t)), TaskDeleted(t)) == FoldTask(lists, TaskDeleted(t))
  {
    FilterIdempotent(lists.Get(t.user), OtherTask(t.id));
  }

  /** Tasks are partitioned by owner: every task in a participant's list
      belongs to that participant. */
  ghost predicate PartitionedByOwner(lists: TaskLists) {
    forall u, t :: t in lists.Get(u) ==> t.user == u
  }

  /** Every task event keeps the partition by owner. */
  lemma {:induction false} FoldTaskKeepsPartition(lists: TaskLists, e: TaskEvent)
    requires PartitionedByOwner(lists)
    ensures PartitionedByOwner(FoldTask(lists, e))
  {
    var r := FoldTask(lists, e);
    forall u, t | t in r.Get(u)
      ensures t.user == u
    {
      if u == Owner(e) && e.TaskUpdated? {
        var i :| 0 <= i < |r.Get(u)| && r.Get(u)[i] == t;
        assert lists.Get(u)[i] in lists.Get(u);
      }
    }
  }

  /** The task mirror after a run of events. */
  function FoldTasks(lists: TaskLists, events: seq<TaskEvent>): TaskLists
    decreases |events|
  {
    if |events| == 0 then lists else FoldTasks(FoldTask(lists, events[0]), events[1..])
  }

  /** Starting from the empty lists, any run of task events leaves every task
      in its owner's list. */
  lemma {:induction false} TasksFromStartPartitioned(events: seq<TaskEvent>)
    ensures PartitionedByOwner(FoldTasks(InitialTasks, events))
  {
    FoldTasksKeepsPartition(InitialTasks, events);
  }

  lemma {:induction false} FoldTasksKeepsPartition(lists: TaskLists, events: seq<TaskEvent>)
    requires PartitionedByOwner(lists)
    ensures PartitionedByOwner(FoldTasks(lists, events))
    decreases |events|
  {
    if |events| > 0 {
      FoldTaskKeepsPartition(lists, events[0]);
      FoldTasksKeepsPartition(FoldTask(lists, events[0]), events[1..]);
    }
  }

  // ---------------------------------------------------------------------------
  // themes
  // ---------------------------------------------------------------------------

  /** The themes handler: whatever the event type, the colour of `new.user` is
      overwritten and the other participant's setting is kept. */
  function FoldTheme(settings: SettingsMap, e: ThemeEvent): (r: SettingsMap)
    ensures r.Get(e.newRecord.user) == UserSettings(e.newRecord.themeColor)
    ensures forall u :: u != e.newRecord.user ==> r.Get(u) == settings.Get(u)
  {
    settings.Set(e.newRecord.user, UserSettings(e.newRecord.themeColor))
  }

  /** Last write wins: of two events for the same participant only the later
      one is visible, and events for different participants commute. */
  lemma {:induction false} ThemeLastWriteWins(settings: SettingsMap, e1: ThemeEvent, e2: ThemeEvent)
    ensures e1.newRecord.user == e2.newRecord.user ==> FoldTheme(FoldTheme(settings, e1), e2) == FoldTheme(settings, e2)
    ensures e1.newRecord.user != e2.newRecord.user ==>
              FoldTheme(FoldTheme(settings, e1), e2) == FoldTheme(FoldTheme(settings, e2), e1)
  {
    var a := FoldTheme(FoldTheme(settings, e1), e2);
    if e1.newRecord.user == e2.newRecord.user {
      assert a == FoldTheme(settings, e2);
    } else {
      assert a == FoldTheme(FoldTheme(settings, e2), e1);
    }
  }

  /** The settings mirror after a run of events. */
  function FoldThemes(settings: SettingsMap, events: seq<ThemeEvent>): SettingsMap
    decreases |events|
  {
    if |events| == 0 then settings else FoldThemes(FoldTheme(settings, events[0]), events[1..])
  }

  /** Events for the other participant leave a participant's colour alone. */
  lemma {:induction false} ThemesUntouched(settings: SettingsMap, events: seq<ThemeEvent>, u: User)
    requires forall i :: 0 <= i < |events| ==> events[i].newRecord.user != u
    ensures FoldThemes(settings, events).Get(u) == settings.Get(u)
    decreases |events|
  {
    if |events| > 0 {
      var rest := events[1..];
      assert forall i :: 0 <= i < |rest| ==> rest[i] == events[i + 1];
      ThemesUntouched(FoldTheme(settings, events[0]), rest, u);
    }
  }

  /** The event at `i` is the last one for `u`, so its colour is `u`'s at the
      end. */
  lemma {:induction false} ThemesLastEvent(settings: SettingsMap, events: seq<ThemeEvent>, u: User, i: nat)
    requires i < |events| && events[i].newRecord.user == u
    requires forall j :: i < j < |events| ==> events[j].newRecord.user != u
    ensures FoldThemes(settings, events).Get(u) == UserSettings(events[i].newRecord.themeColor)
    decreases |events|
  {
    var next := FoldTheme(settings, events[0]);
    var rest := events[1..];
    assert forall k :: 0 <= k < |rest| ==> rest[k] == events[k + 1];
    if i == 0 {
      ThemesUntouched(next, rest, u);
    } else {
      ThemesLastEvent(next, rest, u, i - 1);
    }
  }

  /** After a run of events a participant's colour is the one of the last
      event for them, and their starting colour when there was none. */
  lemma {:induction false} ThemesLastEventWins(settings: SettingsMap, events: seq<ThemeEvent>, u: User)
    ensures (forall i :: 0 <= i < |events| ==> events[i].newRecord.user != u) ==>
              FoldThemes(settings, events).Get(u) == settings.Get(u)
    ensures forall i :: 0 <= i < |events| && events[i].newRecord.user == u
                        && (forall j :: i < j < |events| ==> events[j].newRecord.user != u) ==>
              FoldThemes(settings, events).Get(u) == UserSettings(events[i].newRecord.themeColor)
  {
    if forall i :: 0 <= i < |events| ==> events[i].newRecord.user != u {
      ThemesUntouched(settings, events, u);
    }
    forall i | 0 <= i < |events| && events[i].newRecord.user == u
               && (forall j :: i < j < |events| ==> events[j].newRecord.user != u)
      ensures FoldThemes(settings, events).Get(u) == UserSettings(events[i].newRecord.themeColor)
    {
      ThemesLastEvent(settings, events, u, i);
    }
  }

  /** From the initial settings, a participant no event names keeps their
      default colour: fuchsia for Alex, cyan for Ben. */
  lemma {:induction false} ThemesFromStart(events: seq<ThemeEvent>, u: User)
    requires forall i :: 0 <= i < |events| ==> events[i].newRecord.user != u
    ensures FoldThemes(InitialSettings, events).Get(u).themeColor == (if u == Alex then Fuchsia else Cyan)
  {
    ThemesUntouched(InitialSettings, events, u);
  }
}

=== FILE: tasks.dfy ===
/** Toggling a task's completion (App.tsx `handleToggleTask`). The handler
    only sends an update to the store; the mirrored list changes when the
    store's UPDATE event comes back through `Sync.FoldTask`.
 */
module TaskActions {
  import opened Wrappers
  import opened Types
  import opened Sync

  /** The store update `update({completed}).eq('id', id)`. */
  datatype ToggleUpdate = ToggleUpdate(id: string, completed: bool)

  /** `tasks.find(t => t.id === id)`, as the index of the first match. */
  function FindById(tasks: seq<Task>, id: string): (r: Option<nat>)
    ensures r.None? <==> forall t :: t in tasks ==> t.id != id
    ensures r.Some? ==> r.value < |tasks| && tasks[r.value].id == id
    ensures r.Some? ==> forall j :: 0 <= j < r.value ==> tasks[j].id != id
  {
    if |tasks| == 0 then None
    else if tasks[0].id == id then Some(0)
    else match FindById(tasks[1..], id)
      case None => None
      case Some(k) => Some(k + 1)
  }

  /** `handleToggleTask(user, id)`: when `user`'s list holds a task with that
      id, the update negates the first such task's flag; otherwise nothing is
      sent. */
  function ToggleTask(lists: TaskLists, user: User, id: string): (r: Option<ToggleUpdate>)
    ensures r.None? <==> forall t :: t in lists.Get(user) ==> t.id != id
    ensures r.Some? ==>
              exists i :: 0 <= i < |lists.Get(user)|
                          && lists.Get(user)[i].id == id
                          && (forall j :: 0 <= j < i ==> lists.Get(user)[j].id != id)
                          && r.value == ToggleUpdate(id, !lists.Get(user)[i].completed)
  {
    match FindById(lists.Get(user), id)
    case None => None
    case Some(i) => Some(ToggleUpdate(id, !lists.Get(user)[i].completed))
  }

  /** The row the store holds after applying `u` to the row `t`. */
  function Updated(t: Task, u: ToggleUpdate): Task {
    if t.id == u.id then t.(completed := u.completed) else t
  }

  /** No two tasks of a list share an id. */
  ghost predicate UniqueIds(tasks: seq<Task>) {
    forall i, j :: 0 <= i < j < |tasks| ==> tasks[i].id != tasks[j].id
  }

  /** One full toggle: the update is sent, the store applies it to the task's
      row, and the store's UPDATE event is folded back into the mirror. */
  function ToggleRoundTrip(lists: TaskLists, user: User, i: nat): TaskLists
    requires i < |lists.Get(user)|
  {
    var t := lists.Get(user)[i];
    match ToggleTask(lists, user, t.id)
    case None => lists
    case Some(u) => FoldTask(lists, TaskUpdated(Updated(t, u)))
  }

  /** In a list with unique ids the search finds exactly the task's own
      position. */
  lemma {:induction false} FindUnique(l: seq<Task>, i: nat)
    requires i < |l| && UniqueIds(l)
    ensures FindById(l, l[i].id) == Some(i)
  {
    assert l[i] in l;
  }

  /** In a list with unique ids, replacing by the id of position `i` changes
      that position only. */
  lemma {:induction false} ReplaceUnique(l: seq<Task>, i: nat, t: Task)
    requires i < |l| && UniqueIds(l) && t.id == l[i].id
    ensures ReplaceById(l, t) == l[i := t]
  {
    var r := ReplaceById(l, t);
    forall j | 0 <= j < |l|
      ensures r[j] == l[i := t][j]
    {
      if j < i {
        assert l[j].id != l[i].id;
      } else if i < j {
        assert l[i].id != l[j].id;
      }
    }
  }

  /** Toggling a task of an owner-partitioned list with unique ids flips
      exactly that task's flag and leaves every other task, and the other
      participant's list, as it was. */
  lemma {:induction false} ToggleFlipsOneTask(lists: TaskLists, user: User, i: nat)
    requires i < |lists.Get(user)|
    requires PartitionedByOwner(lists) && UniqueIds(lists.Get(user))
    ensures var t := lists.Get(user)[i];
            && ToggleRoundTrip(lists, user, i).Get(user) == lists.Get(user)[i := t.(completed := !t.completed)]
            && forall w :: w != user ==> ToggleRoundTrip(lists, user, i).Get(w) == lists.Get(w)
  {
    var l := lists.Get(user);
    var t := l[i];
    FindUnique(l, i);
    assert ToggleTask(lists, user, t.id) == Some(ToggleUpdate(t.id, !t.completed));
    var t' := t.(completed := !t.completed);
    assert Updated(t, ToggleUpdate(t.id, !t.completed)) == t';
    assert t in l;
    assert t'.user == user;
    ReplaceUnique(l, i, t');
  }

  /** After one toggle the mirror is still partitioned by owner with unique
      ids, so a second toggle of the same position is covered by
      `ToggleFlipsOneTask` as well. */
  lemma {:induction false} ToggleKeepsWellFormed(lists: TaskLists, user: User, i: nat)
    requires i < |lists.Get(user)|
    requires PartitionedByOwner(lists) && UniqueIds(lists.Get(user))
    ensures var once := ToggleRoundTrip(lists, user, i);
            && i < |once.Get(user)|
            && PartitionedByOwner(once) && UniqueIds(once.Get(user))
  {
    var l := lists.Get(user);
    var t := l[i];
    ToggleFlipsOneTask(lists, user, i);
    FoldTaskKeepsPartition(lists, TaskUpdated(Updated(t, ToggleTask(lists, user, t.id).value)));
    var l1 := l[i := t.(completed := !t.completed)];
    forall a, b | 0 <= a < b < |l1|
      ensures l1[a].id != l1[b].id
    {
      assert l1[a].id == l[a].id && l1[b].id == l[b].id;
    }
  }

  /** Two mirrors that agree for both participants are equal. */
  lemma PerUserEqual<T>(a: PerUser<T>, b: PerUser<T>)
    requires a.Get(Alex) == b.Get(Alex) && a.Get(Ben) == b.Get(Ben)
    ensures a == b
  {
  }

  /** Toggling the same task twice restores the mirror. */
  lemma {:induction false} ToggleTwiceRestores(lists: TaskLists, user: User, i: nat)
    requires i < |lists.Get(user)|
    requires PartitionedByOwner(lists) && UniqueIds(lists.Get(user))
    ensures i < |ToggleRoundTrip(lists, user, i).Get(user)|
    ensures ToggleRoundTrip(ToggleRoundTrip(lists, user, i), user, i) == lists
  {
    var l := lists.Get(user);
    var t := l[i];
    var once := ToggleRoundTrip(lists, user, i);
    ToggleFlipsOneTask(lists, user, i);
    ToggleKeepsWellFormed(lists, user, i);
    ToggleFlipsOneTask(once, user, i);
    var twice := ToggleRoundTrip(once, user, i);
    var l1 := once.Get(user);
    assert twice.Get(user) == l1[i := l1[i].(completed := !l1[i].completed)];
    assert twice.Get(user) == l;
    PerUserEqual(twice, lists);
  }
}

=== FILE: transcribe_audio.dfy ===
/** The transcription endpoint (netlify/functions/transcribe-audio.ts
    `handler`): which status code a request gets, and what is forwarded to the
    model. The model call is external; its settled outcome is a parameter.
 */
module TranscribeAudio {
  import opened Wrappers
  import opened Js
  import opened Http
  import opened Base64

  const AudioRequired: Response := Response(400, ErrorBody("Audio data and MIME type are required"))
  const TranscriptionFailed: Response := Response(500, ErrorBody("Failed to transcribe audio"))

  /** The inline audio part sent to the model: the decoded bytes re-encoded as
      base64, and the request's `mimeType` as it was. */
  datatype InlineAudio = InlineAudio(data: string, mimeType: JsValue)

  /** A response, and the audio part the model was sent (None when the model
      was not called). */
  datatype Handled = Handled(response: Response, modelInput: Option<InlineAudio>)

  /** Both fields read, when the body could be read at all. */
  function ReadFields(body: Option<string>, parse: string -> Option<JsValue>): (r: Option<(JsValue, JsValue)>)
    ensures r.Some? <==> ReadField(body, parse, "audioData").Some?
    ensures r.Some? ==> r.value == (ReadField(body, parse, "audioData").value, ReadField(body, parse, "mimeType").value)
  {
    match ReadField(body, parse, "audioData")
    case None => None
    case Some(audioData) => Some((audioData, ReadField(body, parse, "mimeType").value))
  }

  /** The bytes of `atob(audioData)`, None when it throws. A string is decoded
      as sent, and so is a string wrapped in a one-element array; an object is
      converted to "[object Object]", which never decodes. */
  function DecodeAudio(audioData: JsValue): (r: Option<seq<Byte>>)
    ensures audioData.Str? ==> r == Atob(audioData.s)
    ensures audioData.Array? && |audioData.elems| == 1 && audioData.elems[0].Str? ==>
              r == Atob(audioData.elems[0].s)
    ensures audioData.Object? ==> r.None?
  {
    var text := ToJsString(audioData);
    if audioData.Object? then
      LeadingForeignCharFails(text);
      Atob(text)
    else if audioData.Array? && |audioData.elems| == 1 then
      ShortArraysPrintAsTheirElement(audioData.elems[0]);
      Atob(text)
    else
      Atob(text)
  }

  /** `handler(event)`; `parse` is `JSON.parse` (None when it throws) and
      `reply` the model's settled reply. */
  function Handle(httpMethod: string, body: Option<string>, parse: string -> Option<JsValue>,
                  reply: Settled<string>): (r: Handled)
    // only POST is served
    ensures httpMethod != "POST" ==> r == Handled(MethodNotAllowed, None)
    // an unreadable body is a server error
    ensures httpMethod == "POST" && ReadFields(body, parse).None? ==> r == Handled(TranscriptionFailed, None)
    // a missing or falsy field is rejected before decoding and without a model call
    ensures httpMethod == "POST" && ReadFields(body, parse).Some?
            && (!Truthy(ReadFields(body, parse).value.0) || !Truthy(ReadFields(body, parse).value.1)) ==>
              r == Handled(AudioRequired, None)
    // audio that does not decode is a server error, again without a model call
    ensures httpMethod == "POST" && ReadFields(body, parse).Some?
            && Truthy(ReadFields(body, parse).value.0) && Truthy(ReadFields(body, parse).value.1)
            && DecodeAudio(ReadFields(body, parse).value.0).None? ==>
              r == Handled(TranscriptionFailed, None)
    // the model is called exactly for a POST whose two fields are truthy and
    // whose audio decodes
    ensures r.modelInput.Some? <==>
              && httpMethod == "POST" && ReadFields(body, parse).Some?
              && Truthy(ReadFields(body, parse).value.0) && Truthy(ReadFields(body, parse).value.1)
              && DecodeAudio(ReadFields(body, parse).value.0).Some?
    // the model gets the re-encoded bytes and the MIME type unchanged
    ensures r.modelInput.Some? ==>
              && ReadFields(body, parse).Some?
              && DecodeAudio(ReadFields(body, parse).value.0).Some?
              && r.modelInput.value
                 == InlineAudio(Encode(DecodeAudio(ReadFields(body, parse).value.0).value), ReadFields(body, parse).value.1)
    // a reply is passed on unchanged; a failed call is a server error
    ensures r.modelInput.Some? ==>
              r.response == (if reply.Ok? then Response(200, TranscriptionBody(reply.value)) else TranscriptionFailed)
    ensures r.response.statusCode == 200 ==> r.modelInput.Some? && reply.Ok?
  {
    if httpMethod != "POST" then Handled(MethodNotAllowed, None)
    else match ReadFields(body, parse)
      case None => Handled(TranscriptionFailed, None)
      case Some((audioData, mimeType)) =>
        if !Truthy(audioData) || !Truthy(mimeType) then Handled(AudioRequired, None)
        else match DecodeAudio(audioData)
          case None => Handled(TranscriptionFailed, None)
          case Some(bytes) =>
            var part := InlineAudio(Encode(bytes), mimeType);
            match reply
            case Ok(text) => Handled(Response(200, TranscriptionBody(text)), Some(part))
            case Err => Handled(TranscriptionFailed, Some(part))
  }

  /** The decision table: every request gets one of four status codes, and
      each code has exactly one cause. */
  lemma {:induction false} StatusCodes(httpMethod: string, body: Option<string>, parse: string -> Option<JsValue>,
                                       reply: Settled<string>)
    ensures var r := Handle(httpMethod, body, parse, reply);
            var f := ReadFields(body, parse);
            && r.response.statusCode in {200, 400, 405, 500}
            && (r.response.statusCode == 405 <==> httpMethod != "POST")
            && (r.response.statusCode == 400 <==>
                  httpMethod == "POST" && f.Some? && (!Truthy(f.value.0) || !Truthy(f.value.1)))
            && (r.response.statusCode == 200 <==>
                  httpMethod == "POST" && f.Some? && Truthy(f.value.0) && Truthy(f.value.1)
                  && DecodeAudio(f.value.0).Some? && reply.Ok?)
            && (r.response.statusCode == 500 <==>
                  httpMethod == "POST"
                  && (f.None? || (Truthy(f.value.0) && Truthy(f.value.1)
                                  && (DecodeAudio(f.value.0).None? || reply.Err?))))
  {
    var r := Handle(httpMethod, body, parse, reply);
    var f := ReadFields(body, parse);
    if httpMethod == "POST" && f.Some? && Truthy(f.value.0) && Truthy(f.value.1) && DecodeAudio(f.value.0).Some? {
      assert r.modelInput.Some?;
    }
  }

  /** The client's request for a non-empty recording — base64 produced by an
      encoder and a non-empty MIME type — reaches the model with both fields
      exactly as sent, and the model's reply comes back as a 200. */
  lemma {:induction false} ClientAudioForwardedUnchanged(body: string, parse: string -> Option<JsValue>,
                                                         bytes: seq<Byte>, mimeType: string, text: string)
    requires |bytes| > 0 && mimeType != ""
    requires parse(EffectiveBody(Some(body)))
             == Some(Object(map["audioData" := Str(Encode(bytes)), "mimeType" := Str(mimeType)]))
    ensures var r := Handle("POST", Some(body), parse, Ok(text));
            && r.modelInput == Some(InlineAudio(Encode(bytes), Str(mimeType)))
            && r.response == Response(200, TranscriptionBody(text))
  {
    var audio := Str(Encode(bytes));
    assert ReadFields(Some(body), parse) == Some((audio, Str(mimeType)));
    assert |EncodeUnpadded(bytes)| > 0;
    AtobOfEncode(bytes);
    assert DecodeAudio(audio) == Some(bytes);
    assert Truthy(audio) && Truthy(Str(mimeType));
    var r := Handle("POST", Some(body), parse, Ok(text));
    assert r.modelInput.Some?;
  }

  /** An empty recording encodes as "", which is falsy: the request is
      rejected with 400 and nothing is decoded or sent to the model. */
  lemma {:induction false} EmptyRecordingIsBadRequest(body: string, parse: string -> Option<JsValue>,
                                                      mimeType: JsValue, reply: Settled<string>)
    requires parse(EffectiveBody(Some(body)))
             == Some(Object(map["audioData" := Str(Encode([])), "mimeType" := mimeType]))
    ensures Handle("POST", Some(body), parse, reply) == Handled(AudioRequired, None)
  {
    assert Encode([]) == "";
  }
}

=== FILE: types.dfy ===
/** The records the chat client keeps in memory and exchanges with the remote
    store (types.ts). */
module Types {
  import opened Wrappers

  /** The two fixed participants. */
  datatype User = Alex | Ben

  /** The five theme palettes a participant may choose. */
  datatype ThemeColor = Fuchsia | Cyan | Emerald | Orange | Rose

  /** The four-field reflection the suggestion endpoint is asked to produce. */
  datatype Suggestion = Suggestion(
    mood: string,
    acknowledgement: string,
    encouragement: string,
    reflectionQuestion: Option<string>)

  /** The `suggestion` field's union `Suggestion | string`, tagged by the
      runtime type of the stored value. */
  datatype SuggestionValue = Structured(structured: Suggestion) | Text(text: string)

  /** A persisted chat message. An absent `suggestionLoading` reads as false in
      every use, so it is a plain flag here. */
  datatype Message = Message(
    id: string,
    text: string,
    timestamp: string,
    sender: User,
    suggestion: Option<SuggestionValue>,
    suggestionLoading: bool,
    audio: Option<string>)

  /** A message as the client hands it to the store's insert (`Omit<Message, 'id'>`):
      the store assigns the id, and the suggestion is absent. */
  datatype NewMessage = NewMessage(
    text: string,
    timestamp: string,
    sender: User,
    suggestionLoading: bool,
    audio: Option<string>)
  {
    /** The row the store holds once it has assigned `id` to this message. */
    function WithId(id: string): Message
    {
      Message(id, text, timestamp, sender, None, suggestionLoading, audio)
    }
  }

  /** A draft waiting in the outbox. `id` is the millisecond clock reading at
      enqueue time. */
  datatype QueuedMessage = QueuedMessage(id: int, text: string, timestamp: string)

  /** A to-do item. The owner field `user` is not declared in types.ts but is
      written by the task insert and read by the realtime handler. */
  datatype Task = Task(id: string, text: string, completed: bool, user: User)

  /** A participant's theme preference as the client keeps it. */
  datatype UserSettings = UserSettings(themeColor: ThemeColor)
}

=== FILE: voice.dfy ===
/** Voice notes (App.tsx `handleVoiceClick` and `handleSendVoiceMessage`).
    The microphone, the recorder, the FileReader, the store insert and the
    transcription request are external; each appears as its settled outcome.
 */
module Voice {
  import opened Wrappers
  import opened Types
  import opened Js

  /** The text stored with every voice note. */
  const VoiceNoteText: string := "(voice note)"

  // ---------------------------------------------------------------------------
  // The record button
  // ---------------------------------------------------------------------------

  /** What a click asks of the recorder. */
  datatype RecorderEffect = StopRecorder | StartRecorder | MicrophoneAlert

  datatype ClickRun = ClickRun(isRecording: bool, effect: RecorderEffect)

  /** `handleVoiceClick`. `microphone` is the outcome of acquiring the stream
      and starting a recorder on it. While recording, a click stops the
      recorder (which hands the audio to `SendVoiceMessage`); otherwise a
      click starts recording, or alerts and stays idle when that fails. */
  function VoiceClick(isRecording: bool, microphone: Settled<()>): (r: ClickRun)
    ensures isRecording ==> !r.isRecording && r.effect == StopRecorder
    ensures !isRecording ==> (r.isRecording <==> microphone.Ok?)
    ensures !isRecording ==> r.effect == (if microphone.Ok? then StartRecorder else MicrophoneAlert)
  {
    if isRecording then ClickRun(false, StopRecorder)
    else match microphone
      case Ok(_) => ClickRun(true, StartRecorder)
      case Err => ClickRun(false, MicrophoneAlert)
  }

  /** From idle, a click with the microphone granted starts recording and the
      next click stops it; with the microphone refused, idle is kept and no
      recorder is started, however often the user clicks. */
  lemma {:induction false} ClickCycle(mic: Settled<()>, mic2: Settled<()>)
    ensures mic.Ok? ==>
              var first := VoiceClick(false, mic);
              var second := VoiceClick(first.isRecording, mic2);
              first.effect == StartRecorder && second == ClickRun(false, StopRecorder)
    ensures mic.Err? ==>
              var first := VoiceClick(false, mic);
              !first.isRecording && first.effect != StartRecorder
              && VoiceClick(first.isRecording, mic) == first
  {
  }

  // ---------------------------------------------------------------------------
  // Handling a finished recording
  // ---------------------------------------------------------------------------

  /** Everything one run of the voice handler does: the text box afterwards,
      the final transcribing flag, every value written to that flag in order,
      whether transcription was requested, and the record handed to the
      store's insert. */
  datatype VoiceRun = VoiceRun(
    draft: string,
    isTranscribing: bool,
    flagWrites: seq<bool>,
    transcriptionRequested: bool,
    placeholder: Option<NewMessage>)

  /** `handleSendVoiceMessage` for a recording by `sender` at `nowIso`.
      - `dataUrl`: the FileReader's data URL of the recording, None when it
        fails (the outer `catch`);
      - `insert`: the store insert of the placeholder; the returned error is
        discarded and only a thrown one is logged, so nothing reads it;
      - `transcription`: the settled transcription request, whose value is the
        endpoint's `transcription` field (any JSON value, or undefined). */
  function SendVoiceMessage(draft: string, sender: User, nowIso: string, dataUrl: Option<string>,
                            insert: Settled<()>, transcription: Settled<JsValue>): (r: VoiceRun)
    // the flag is raised on entry and lowered on exit on every path
    ensures r.flagWrites == [true, false] && !r.isTranscribing
    // transcription is requested before the audio is converted
    ensures r.transcriptionRequested
    // a failed conversion skips both branches
    ensures dataUrl.None? ==> r.placeholder.None? && r.draft == draft
    // otherwise a non-loading placeholder carrying the data URL's payload is inserted
    ensures dataUrl.Some? ==>
              r.placeholder == Some(NewMessage(VoiceNoteText, nowIso, sender, false, SplitSecond(dataUrl.value)))
    // the text box takes the transcription only when it is a string
    ensures dataUrl.Some? && transcription.Ok? && transcription.value.Str? ==> r.draft == transcription.value.s
    ensures !(transcription.Ok? && transcription.value.Str?) ==> r.draft == draft
  {
    match dataUrl
    case None => VoiceRun(draft, false, [true, false], true, None)
    case Some(url) =>
      var placeholder := NewMessage(VoiceNoteText, nowIso, sender, false, SplitSecond(url));
      var draft' := match transcription
        case Ok(Str(text)) => text
        case _ => draft;
      VoiceRun(draft', false, [true, false], true, Some(placeholder))
  }

  /** The two branches are independent: the insert's outcome never affects the
      text box, and the transcription's outcome never affects what is
      inserted. */
  lemma {:induction false} VoiceBranchesIndependent(draft: string, sender: User, nowIso: string, dataUrl: Option<string>,
                                                    insert1: Settled<()>, insert2: Settled<()>,
                                                    tx1: Settled<JsValue>, tx2: Settled<JsValue>)
    ensures SendVoiceMessage(draft, sender, nowIso, dataUrl, insert1, tx1).draft
            == SendVoiceMessage(draft, sender, nowIso, dataUrl, insert2, tx1).draft
    ensures SendVoiceMessage(draft, sender, nowIso, dataUrl, insert1, tx1).placeholder
            == SendVoiceMessage(draft, sender, nowIso, dataUrl, insert1, tx2).placeholder
  {
  }

  /** A recording read as `data:<type>;base64,<payload>` is stored with exactly
      its base64 payload as the voice note's audio. */
  lemma {:induction false} PlaceholderCarriesPayload(draft: string, sender: User, nowIso: string,
                                                     header: string, payload: string,
                                                     insert: Settled<()>, tx: Settled<JsValue>)
    requires ',' !in header && ',' !in payload
    ensures SendVoiceMessage(draft, sender, nowIso, Some(header + "," + payload), insert, tx).placeholder.value.audio
            == Some(payload)
  {
    SplitSecondOfDataUrl(header, payload);
  }
}

=== FILE: wrappers.dfy ===
/** Small failure-carrying datatypes shared by every module of the model.
    - Option<T> stands for a JavaScript value that may be absent (`undefined`, a
      missing key, a `null` body).
    - Settled<T> stands for the settled state of one awaited external call: the
      promise resolved with a value (Ok) or rejected / threw (Err). The reason of a
      rejection is only ever logged by the client, so it carries no payload.
 */
module Wrappers {

  datatype Option<+T> = None | Some(value: T)

  datatype Settled<+T> = Ok(value: T) | Err
}
